=== FILE: README.md ===
# rddlsim Simulator: trials, trajectory log and state columns

A model of the episode engine of the rddlsim RDDL simulator
(`rddl.sim.Simulator`), with its properties proved in Dafny. It has five
parts.

- **Setup** (`configure.dfy`). The constructor's checks. The instance must
  exist. The nonfluents block it names must exist. The two must be written
  for the same domain. The instance is partially observed when its name
  contains `pomdp`.
- **Rollout** (`rollout.dfy`). One trial of `run`, as functions of the
  decision model, the instance, the policy and the seed. Each step checks
  the invariants, asks the policy, checks the action constraints, computes
  the next state, samples the reward, advances, and tests the terminate-when
  condition. An `EvalException` from any of these calls ends the trial.
- **StateDescription** (`state_description.dfy`). `getStateDescription`,
  seen as a sequence of cells, one per value written.
  - Non-derived intermediates, `nonfluent` entries, and `states` entries of
    a `pomdp` instance are dropped.
  - Booleans are written as `1`/`0`, every other value as its text, each
    followed by a tab.
  - The `running-obs` values follow each variable's own values.
  - When generating a variable's groundings fails, that variable's cells
    are dropped and the other variables are still described.
- **TrajectoryLog** (`trajectory_log.dfy`). `write_data` as a function on
  the logger's fields (`started`, the buffer `sb`, and a file record). The
  file record holds whether the file exists and what its writer was handed.
  This module also holds the two ways of ending a run.
- **Sim** (`simulator.dfy`). The `Simulator` class itself.
  - One `State` object is changed in place by every step of every trial.
  - `Run`, `WriteData` and `GetStateDescription` are imperative methods with
    the source's loops. Each is proved against the functions above.
  - `run` adds the same `State` object to its list on every step, so every
    step's block in a logged row is the description of the trial's final
    state. `Run` proves exactly that.
  - `RunBatch` is the trial loop of `main`.

The RDDL state operations and the policy are records of function values
(`RddlState.Dynamics`, `RddlState.Policy`). Every domain is an instance of
the model, and so is every policy that leaves the state it is shown
unchanged. A result of `None` from one of them stands for
an `EvalException`.

## Model

| member | source | states |
|---|---|---|
| Setup.Configure | src/rddl/sim/Simulator.java:42-61 | Accepts exactly when the instance exists and its nonfluents reference, if any, names an existing block of the same domain. A rejection names its reason: an unknown instance, an unknown nonfluents block, or two different domain names. On acceptance it keeps that instance and its nonfluents, finds the domain when one is loaded, and sets `pomdp` exactly when the name contains "pomdp". The domain found is the loaded one named by the instance. An unknown instance is rejected with its name and the known instance names. An unknown nonfluents block is rejected with its name and the known block names. A domain mismatch is rejected with the instance's domain and the block's domain, in that order. |
| Text.Contains | src/rddl/sim/Simulator.java:44 | The `contains` test holds exactly when the pattern occurs at some position of the name. |
| Sim.Simulator.constructor | src/rddl/sim/Simulator.java:42-61 | The simulator keeps the accepted configuration, a fresh empty `State`, a logger that has not started, and an empty buffer. |
| Sim.Simulator.ResetState | src/rddl/sim/Simulator.java:63-69 | Succeeds exactly when the instance's domain was loaded and state initialisation succeeds, and then the state holds the initial state. Without a loaded domain it throws before touching the state. With a loaded domain, a failing initialisation throws the initialisation's exception. |
| Rollout.PolicyView | src/rddl/sim/Simulator.java:100 | The policy is passed nothing exactly at step 0 of a state with observation names. Otherwise it is passed the current state. |
| Rollout.Step | src/rddl/sim/Simulator.java:94-126 | A step that goes through adds one record to the trace. The record starts from the current state and holds what the policy was passed. The step stops exactly when a terminate-when condition exists and holds on the advanced state. A failing step fails at its own step number. |
| Rollout.StepExtends | src/rddl/sim/Simulator.java:100-117 | A completed step appends exactly one reward and one policy input to the ones before. |
| Rollout.DiscountedSumSnoc | src/rddl/sim/Simulator.java:86-119 | Once the running return adds the discounted reward, and the discount is multiplied by the factor, the two still equal the sum of gamma^k times reward k and gamma^n. |
| Sim.AddReward | src/rddl/sim/Simulator.java:116-119 | Appends the reward, and keeps the accumulator equal to the discounted sum of the rewards and the discount equal to gamma to the number of rewards. |
| Rollout.RolloutLength | src/rddl/sim/Simulator.java:92-127 | A finished trial keeps the steps already taken and takes at most the horizon in steps. It takes a step whenever one remains. It ends short of the horizon only when the terminate-when condition holds on the final state. |
| Rollout.ObservationMasking | src/rddl/sim/Simulator.java:99-101 | Every step passes the policy nothing exactly at step 0 of a state with observation names, and the step's starting state otherwise. |
| Rollout.StopsAtFirstTermination | src/rddl/sim/Simulator.java:124-126 | The terminate-when condition was false at the start of every later step: the loop breaks at the first step after which it holds. |
| Rollout.RollFrom | src/rddl/sim/Simulator.java:92-127 | A finished rest of a trial starts with the steps already taken, unchanged. An exception that ends it comes from a step that the horizon allows and that had not completed. |
| Rollout.Simulate | src/rddl/sim/Simulator.java:73-127 | A trial fails at reset exactly when state initialisation fails. It fails on allocating its lists exactly when the horizon is negative. Any other failure is a step inside the horizon. A finished trial had a successful reset and a horizon of at least zero. |
| Rollout.StepChained | src/rddl/sim/Simulator.java:94-126 | The step an iteration adds is chained (see TraceIsChain). |
| Rollout.TraceIsChain | src/rddl/sim/Simulator.java:92-127 | Every step taken in the rest of a finished trial is chained, in the loop's order of calls. The invariants held on its starting state. The policy chose its actions from everything it had been shown up to that step. The actions met the constraints. The next state was computed from the starting state, the actions and the step's random source. The reward was sampled from the next state. Advancing it gave the starting state of the following step, or the trial's final state. |
| Rollout.TrialShape | src/rddl/sim/Simulator.java:73-127 | A finished trial starts from the initial state and the seeded random source. It has at most horizon steps, fewer only through the terminate-when condition, and masks the policy's view exactly at step 0 when observations exist. Every one of its steps is chained as TraceIsChain states. |
| Sim.Simulator.Trial | src/rddl/sim/Simulator.java:63-89 | A trial throws `NoDomain` (the null-domain exception of `resetState`) exactly when the instance's domain was not loaded. Otherwise it is the trial of `Rollout.Simulate`, so it also throws at the reset when initialisation fails. A finished trial had a loaded domain, a successful initialisation and a horizon of at least zero. |
| Rollout.RollFromStep | src/rddl/sim/Simulator.java:92-127 | One pass of the loop inside the horizon: a throwing step ends the trial with its exception, and a step after which the terminate-when condition holds ends it with that step's trace. Otherwise the trial goes on from the new trace. |
| Sim.Simulator.StepOnce | src/rddl/sim/Simulator.java:94-126 | One loop iteration in the source's order of calls. It fails with the error the step function gives, or returns what the policy saw, the reward and the stop flag, and leaves the state and random source as the step function does. |
| Sim.Simulator.Iterate | src/rddl/sim/Simulator.java:94-126 | One pass of the loop body: it throws exactly when the step does. Otherwise it leaves the state and random source where the step does, and extends the policy's history, the state list, the rewards and the discounted return by that step. |
| Sim.Simulator.RunSteps | src/rddl/sim/Simulator.java:86-127 | The loop fails exactly when the trial fails. Otherwise it ends in the trial's final state. Its rewards are the steps' rewards and its accumulator is their discounted sum. It holds one list entry per step, and every entry is the one `State` object. |
| Sim.Simulator.Run | src/rddl/sim/Simulator.java:73-136 | Without a loaded domain every trial throws at the reset. A trial with a negative horizon throws after the reset, with the state holding the initial state and the random source freshly seeded. A failing trial returns its exception and leaves the logger's fields untouched, so no row is logged. A finished trial returns the discounted return and the rewards, and logs one row. In that row every step's block is the final state's description followed by that step's reward. |
| Sim.Simulator.RowBlocks | src/rddl/sim/Simulator.java:157-163 | One block per step: the description of the listed state object as it is when the row is written, followed by the reward's text. |
| Sim.AppendBlock | src/rddl/sim/Simulator.java:159-163 | Each block is followed by a tab, except the last. |
| Sim.Simulator.RowBody | src/rddl/sim/Simulator.java:157-164 | The steps' blocks joined by tabs, with no tab after the last. |
| Sim.Simulator.RowText | src/rddl/sim/Simulator.java:156-164 | The row is the trial number, a tab, then the joined blocks. |
| Sim.Simulator.WriteData | src/rddl/sim/Simulator.java:138-174 | The logger's new fields are exactly those of the logging function for this trial's row. |
| TrajectoryLog.Row | src/rddl/sim/Simulator.java:156-164 | The first tab-separated field of a row is the trial number's text. |
| TrajectoryLog.Log | src/rddl/sim/Simulator.java:141-170 | After every call the logger has started and the file exists. File plus buffer become the old file plus buffer, a line break and the row; or just the row, when the file was absent or the logger had not started. The buffer is empty after a multiple of 1000. Otherwise the file is unchanged, or empty after a restart. |
| TrajectoryLog.RowFields | src/rddl/sim/Simulator.java:156-164 | The first tab-separated field of a row is its trial number, and it reads back as that number. A row holds no line break when no block does. A trial without steps logs only its number and a tab. |
| Text.IntText | src/rddl/sim/Simulator.java:156 | The trial number's text is not empty, is made of digits with at most a leading minus sign, and starts with a minus sign exactly when the number is negative. |
| Text.ReplaceAll | src/rddl/sim/Simulator.java:193 | A name without the pattern is left as it is. |
| Text.IntTextRoundTrip | src/rddl/sim/Simulator.java:156 | The decimal text of the trial number reads back as that number and holds no tab or line break. |
| Text.SplitJoin | src/rddl/sim/Simulator.java:157-163 | Tab-joined parts that hold no tab split back into the same parts. |
| TrajectoryLog.FlushedIsLastMultiple | src/rddl/sim/Simulator.java:166-170 | After n trials numbered from 1, the rows handed to the file are those up to the largest multiple of 1000 not above n. |
| TrajectoryLog.BatchContents | src/rddl/sim/Simulator.java:143-170 | After a fresh run of trials 1..n, file and buffer together hold every row in order, one per line. |
| TrajectoryLog.BatchFlushed | src/rddl/sim/Simulator.java:166-170 | After a fresh run of trials 1..n, the file holds exactly the rows up to the last multiple of 1000, one per line. |
| TrajectoryLog.CloseAsWritten | src/rddl/sim/Simulator.java:267 | Closing the writer the way `main` does keeps the file as it was. A non-empty buffer never reaches the file. |
| TrajectoryLog.CloseFlushing | src/rddl/sim/Simulator.java:267 | The corrected close hands the file its text so far followed by the whole buffer. |
| TrajectoryLog.AsWrittenCloseDropsTail | src/rddl/sim/Simulator.java:267 | When the number of trials is not a multiple of 1000, closing the writer the way `main` does loses the rows still in the buffer. With fewer than 1000 trials the file is empty. |
| TrajectoryLog.FlushedCloseKeepsEveryRow | src/rddl/sim/Simulator.java:267 | Writing the buffer before closing leaves exactly the run's rows in the file, one per line. |
| Sim.Simulator.Close | src/rddl/sim/Simulator.java:267 | Hands the remaining buffer to the file and empties the buffer. This is the corrected close. |
| Sim.Simulator.RunBatch | src/rddl/sim/Simulator.java:253-267 | Trial i (from 1) runs with the i-th policy and seed, and each completed trial logs its own row. The batch stops at the first trial that throws, with the log as the completed trials left it. Otherwise the logger ends as the completed trials left it, except that the file is closed the corrected way and the buffer is empty. |
| Sim.ValueColumn | src/rddl/sim/Simulator.java:201-207 | A Boolean column is `1` or `0`, any other value its text, always followed by a tab. |
| Sim.ValueColumns | src/rddl/sim/Simulator.java:199-209 | The columns of one variable's values, grounding by grounding. |
| Sim.Simulator.VarColumns | src/rddl/sim/Simulator.java:185-224 | One variable's columns: the text of its cells. |
| Sim.Simulator.EntryColumns | src/rddl/sim/Simulator.java:182-225 | One type-map entry's columns: the text of its variables' cells, in order. |
| Sim.Simulator.GetStateDescription | src/rddl/sim/Simulator.java:176-228 | The description is the text of the state's cells, in type-map order. |
| StateDescription.VarCells | src/rddl/sim/Simulator.java:185-224 | A shown variable of a shown category with generated groundings has one cell per grounding, and one more per grounding when `running-obs` is declared. Any other variable has no cell. |
| StateDescription.Describe | src/rddl/sim/Simulator.java:176-228 | The description is empty exactly when the state has no cell to show. Otherwise it ends with a tab. |
| StateDescription.GroundCellsAt | src/rddl/sim/Simulator.java:199-209 | The k-th cell of a variable holds its value at the k-th grounding. |
| StateDescription.VarCellsSound | src/rddl/sim/Simulator.java:187-221 | A shown variable with generated groundings has one cell per grounding, or two when `running-obs` is declared. Any other variable has none. Every cell is sound: a shown category, a shown variable, one of its groundings, and the value read. |
| StateDescription.VarsCellsSound | src/rddl/sim/Simulator.java:185-225 | Every cell of an entry is sound and belongs to one of the entry's variables. |
| StateDescription.EntriesCellsSound | src/rddl/sim/Simulator.java:182-226 | Every cell of the description is sound and comes from some entry and one of its variables. |
| StateDescription.RelabelKeepsFilter | src/rddl/sim/Simulator.java:193-194 | Renaming "interm" to "derived" before the comparison never changes the filter: a category is dropped exactly when it is "nonfluent", or "states" for a pomdp instance. |
| StateDescription.DescriptionHidesMaskedColumns | src/rddl/sim/Simulator.java:188-194 | No column belongs to a nonfluent, to a non-derived intermediate, or, for a pomdp instance, to a state variable. Every column is the state's own value. |
| StateDescription.CellsOfVarComplete | src/rddl/sim/Simulator.java:197-221 | A shown variable with generated groundings has a cell for its value at each grounding, and one for the `running-obs` value when that is declared. |
| StateDescription.VarsCellsInclude | src/rddl/sim/Simulator.java:185-225 | A variable's cells all appear among its entry's cells, whatever the other variables do. |
| StateDescription.EntriesCellsInclude | src/rddl/sim/Simulator.java:182-226 | An entry's cells all appear in the description. |
| StateDescription.CellsComplete | src/rddl/sim/Simulator.java:182-226 | Every value of a shown variable of a shown category appears in the description, even when evaluating another variable fails. |
| StateDescription.DescriptionColumns | src/rddl/sim/Simulator.java:199-220 | Split at tabs, a description gives one field per cell, holding that cell's text, and an empty field after the last tab. This holds when no value's text holds a tab. |

## Left out

- `RddlState.Dynamics`: `State.init`, invariant and constraint checking, `computeNextState`, reward sampling, `advanceNextState`, the terminate-when test, `generateAtoms` and `getPVariableAssign` are function parameters. The code of `rddl.State` is not part of this model.
- `RddlState.Policy`: a policy is a function of everything it has been passed so far in the trial. It is passed snapshots of the state. A Java policy is handed the live `_state` object, which the action check and the next-state computation then read. The model therefore assumes that a policy does not change the state object it is passed. The policy classes, their random seeds and their reflective loading in `main` are not part of this model.
- `RandomDataGenerator` is the seed plus an opaque draw count that the state operations thread through. The wall-clock seeds of `main` are the parameter `seeds` of `RunBatch`.
- `Sim.Simulator.formatReward`: the text Java gives a `double` is a function parameter. Rewards and discounts are `real`, with no IEEE rounding.
- `Sim.Simulator.Run`: `states.add(_state)` sits before `advanceNextState` in the source and after the whole step here. An exception after that point discards both lists, so the result is the same.
- `Sim.Simulator.Run`: the visualizer hook `v.close()` and the commented-out display calls do nothing the model can see.
- `Sim.Simulator.WriteData`: the file is a record of whether it exists and of the text handed to its writer. `File` calls, `FileWriter` buffering, the fixed file name, the `IOException` branch and console prints are not modelled.
- `Sim.Simulator.GetStateDescription`: the console message on an `EvalException` is not modelled. Iterating the type map follows the order of the `typeMap` sequence, so the hash map's iteration order is a property of the input.
- `Sim.Simulator.ResetState`: without a loaded domain, `resetState` dereferences a null domain. The resulting NullPointerException is the trial error `NoDomain`. Like every exception that leaves `run`, it ends `main`.
- `Sim.Simulator.RunBatch`: the argument handling and the usage exit of `main` are left out. The number of trials is the length of the policy and seed lists, and trials are numbered with unbounded integers, with no 32-bit wrap-around.
- `Sim.Simulator.Close`: `main` closes the writer without writing the buffer. That behaviour is `TrajectoryLog.CloseAsWritten`, with its consequence proved in `TrajectoryLog.AsWrittenCloseDropsTail`. The class uses the corrected close (see Findings). When any trial throws, `main` never reaches the close. A batch where the logger never started would have a null writer there; that case is not modelled.
- `RddlState.Dynamics.assign`: reading a variable's value at a grounding (`getPVariableAssign`) is assumed never to throw, since it is a map lookup. If it did throw part-way through a variable, the source would keep the columns already written for that variable, and the model does not capture that.
- `RddlState.Value`: a value other than a Boolean is carried with the text `toString` gives it, so number formatting is not modelled.

## Findings

| source | as written | input that shows it | evidently intended | confidence | as-written member | corrected member |
|---|---|---|---|---|---|---|
| src/rddl/sim/Simulator.java:267 (with 166-170) | `main` closes the file writer without writing the rows still in `sb`. Rows reach the writer only at trials that are multiples of 1000. | The default run of one trial: trial 1 is not a multiple of 1000, so its row stays in the buffer and `data_output.tsv` ends empty. The same happens with any trial count that is not a multiple of 1000, which loses its last rows. | Write the remaining buffer before closing, so the file holds every trial's row. | not executed | TrajectoryLog.AsWrittenCloseDropsTail | TrajectoryLog.FlushedCloseKeepsEveryRow |

=== FILE: configure.dfy ===
/** The checks the Simulator constructor makes before any trial: the named
    instance must exist, the nonfluents block it names must exist, and the
    two must be written for the same domain. */
module Setup {
  import opened RddlState
  import Text

  datatype ConfigError =
    | InstanceNotFound(instance: string, choices: set<string>)
    | NonFluentsNotFound(nonFluents: string, choices: set<string>)
    | DomainMismatch(instanceDomain: string, nonFluentsDomain: string)

  /** The blocks a simulator runs on. `domain` is None when the instance
      names a domain that was not loaded: the constructor does not check
      that lookup. `pomdp` is set by the instance's name alone. */
  datatype Config = Config(inst: Instance, nonFluents: Option<NonFluents>, domain: Option<Domain>, pomdp: bool)

  datatype Configured = Ready(config: Config) | Rejected(error: ConfigError)

  /** The instance's nonfluents reference, if any, resolves to a block of
      the same domain. */
  predicate Consistent(rddl: Rddl, inst: Instance)
  {
    inst.nonFluents.None?
    || (inst.nonFluents.value in rddl.nonFluents
        && rddl.nonFluents[inst.nonFluents.value].domain == inst.domain)
  }

  /** The lookups and the domain-name check of the constructor, in its order. */
  function Configure(rddl: Rddl, name: string): (r: Configured)
    ensures r.Ready? <==> name in rddl.instances && Consistent(rddl, rddl.instances[name])
    ensures r.Ready? ==>
      var inst := rddl.instances[name];
      && r.config.inst == inst
      && r.config.pomdp == (exists i: nat :: Text.OccursAt(name, "pomdp", i))
      && (r.config.nonFluents.Some? <==> inst.nonFluents.Some?)
      && (r.config.nonFluents.Some? ==> r.config.nonFluents.value == rddl.nonFluents[inst.nonFluents.value])
      && (r.config.nonFluents.Some? ==> r.config.nonFluents.value.domain == inst.domain)
      && (r.config.domain.Some? <==> inst.domain in rddl.domains)
      && (r.config.domain.Some? ==> r.config.domain.value == rddl.domains[inst.domain])
    ensures name !in rddl.instances ==> r == Rejected(InstanceNotFound(name, rddl.instances.Keys))
    ensures name in rddl.instances ==>
      var inst := rddl.instances[name];
      && (inst.nonFluents.Some? && inst.nonFluents.value !in rddl.nonFluents ==>
            r == Rejected(NonFluentsNotFound(inst.nonFluents.value, rddl.nonFluents.Keys)))
      && (inst.nonFluents.Some? && inst.nonFluents.value in rddl.nonFluents
          && rddl.nonFluents[inst.nonFluents.value].domain != inst.domain ==>
            r == Rejected(DomainMismatch(inst.domain, rddl.nonFluents[inst.nonFluents.value].domain)))
    ensures r.Rejected? ==>
      && (r.error.NonFluentsNotFound? ==> r.error.nonFluents !in r.error.choices)
      && (r.error.DomainMismatch? ==> r.error.instanceDomain != r.error.nonFluentsDomain)
  {
    var pomdp := Text.Contains(name, "pomdp");
    if name !in rddl.instances then
      Rejected(InstanceNotFound(name, rddl.instances.Keys))
    else
      var inst := rddl.instances[name];
      if inst.nonFluents.Some? && inst.nonFluents.value !in rddl.nonFluents then
        Rejected(NonFluentsNotFound(inst.nonFluents.value, rddl.nonFluents.Keys))
      else
        var nf := if inst.nonFluents.Some? then Some(rddl.nonFluents[inst.nonFluents.value]) else None;
        var dom := if inst.domain in rddl.domains then Some(rddl.domains[inst.domain]) else None;
        if nf.Some? && inst.domain != nf.value.domain then
          Rejected(DomainMismatch(inst.domain, nf.value.domain))
        else
          Ready(Config(inst, nf, dom, pomdp))
  }
}

=== FILE: rddl_state.dfy ===
/** What the simulator sees of an RDDL problem: the parsed domain, nonfluent
    and instance blocks it looks up, the value of an `rddl.State`, and the
    operations of `rddl.State` and `rddl.policy.Policy` it calls. The bodies of
    those operations are not part of this model, so they are given as
    function values. Every domain is an instance of these records, and so
    is every policy that leaves the state it is shown unchanged. */
module RddlState {

  datatype Option<+T> = None | Some(value: T)

  /** An assignment as `State.getPVariableAssign` returns it: a Java Boolean,
      or any other object, carried with the text its `toString` gives (a
      number's decimal text, an enum value's name, "null" when unassigned). */
  datatype Value = BoolValue(b: bool) | OtherValue(text: string)

  /** A PVAR_NAME: its printed name and the name of its unprimed variable. */
  datatype PVarName = PVarName(name: string, unprimed: string)

  /** The object arguments (LCONSTs) of one grounding of a variable. */
  type Grounding = seq<string>

  /** The declaration kinds the simulator tells apart: an intermediate
      variable, which may be marked derived, and every other declaration. */
  datatype VarDef = IntermDef(derived: bool) | OtherDef

  /** A PVAR_INST_DEF: one ground action assignment chosen by a policy. */
  datatype Assignment = Assignment(pvar: PVarName, args: Grounding, value: Value)

  type Actions = seq<Assignment>

  /** One entry of `State._hmTypeMap`: a variable category ("states",
      "observ", "interm", "nonfluent", ...) with its variables, in order. */
  datatype TypeEntry = TypeEntry(category: string, vars: seq<PVarName>)

  /** The content of an `rddl.State` at one moment. `atoms` is
      `generateAtoms` (None where it raises EvalException) and `assign` is
      `getPVariableAssign`. */
  datatype StateValue = StateValue(
    typeMap: seq<TypeEntry>,
    pvariables: map<string, VarDef>,
    observNames: seq<PVarName>,
    atoms: PVarName -> Option<seq<Grounding>>,
    assign: (PVarName, Grounding) -> Value)

  /** The content of a freshly allocated `State`, before `init`. */
  const EmptyState := StateValue([], map[], [], _ => None, (_, _) => OtherValue("null"))

  /** A seeded RandomDataGenerator: the seed it was given and how many draws
      the simulation has taken from it. */
  datatype Rng = Rng(seed: int, drawn: nat)

  /** The operations of `rddl.State` that one trial calls, for the domain,
      nonfluents and instance the simulator was built for. None stands for
      an EvalException. */
  datatype Dynamics = Dynamics(
    init: Option<StateValue>,                                    // State.init via resetState
    invariantsHold: StateValue -> bool,                          // checkStateInvariants
    actionsLegal: (StateValue, Actions) -> bool,                 // checkStateActionConstraints
    nextState: (StateValue, Actions, Rng) -> Option<(StateValue, Rng)>,  // computeNextState
    reward: (StateValue, Rng) -> Option<(real, Rng)>,            // _reward.sample, ConvertToNumber
    advance: StateValue -> Option<StateValue>,                   // advanceNextState(false)
    terminated: (StateValue, string) -> Option<bool>)            // checkTerminationCondition

  /** A policy object constructed for one trial. Its choice may depend on
      everything it has been passed so far in the trial, the latest last;
      None stands for an EvalException from `getActions`. */
  datatype Policy = Policy(getActions: seq<Option<StateValue>> -> Option<Actions>)

  /** An INSTANCE block: its domain, its nonfluents block if it names one,
      the horizon, the discount factor and the terminate-when condition. */
  datatype Instance = Instance(
    domain: string,
    nonFluents: Option<string>,
    horizon: int,
    discount: real,
    termCond: Option<string>)

  /** A NONFLUENTS block, by the domain it is written for. */
  datatype NonFluents = NonFluents(domain: string)

  datatype Domain = Domain(name: string)

  /** The parsed RDDL files: instance, nonfluent and domain blocks by name. */
  datatype Rddl = Rddl(
    instances: map<string, Instance>,
    nonFluents: map<string, NonFluents>,
    domains: map<string, Domain>)
}

=== FILE: rollout.dfy ===
/** One trial of the simulator (the loop of Simulator.run) as a function of
    the decision model, the instance, the policy and the seed: the sequence
    of steps it takes, or the EvalException that ends it. */
module Rollout {
  import opened RddlState

  /** g to the power n. */
  function Power(g: real, n: nat): real
    decreases n
  {
    if n == 0 then 1.0 else Power(g, n - 1) * g
  }

  /** The discounted return of a reward sequence, summed in the order the
      rewards arrive: step k contributes g^k times its reward. */
  function DiscountedSum(rs: seq<real>, g: real): real
    decreases |rs|
  {
    if rs == [] then 0.0
    else DiscountedSum(rs[..|rs| - 1], g) + Power(g, |rs| - 1) * rs[|rs| - 1]
  }

  /** One more reward adds it, discounted by its step number: the running
      sum and the running discount factor of the loop stay in step with the
      rewards seen so far. */
  lemma DiscountedSumSnoc(rs: seq<real>, r: real, g: real, accum: real, discount: real)
    requires accum == DiscountedSum(rs, g) && discount == Power(g, |rs|)
    ensures accum + discount * r == DiscountedSum(rs + [r], g)
    ensures discount * g == Power(g, |rs| + 1)
  {
    var n := |rs|;
    assert (rs + [r])[..n] == rs;
    assert DiscountedSum(rs + [r], g) == DiscountedSum(rs, g) + Power(g, n) * r;
    assert Power(g, n + 1) == Power(g, n) * g;
  }

  /** The call of a step that raised the EvalException ending a trial. */
  datatype Stage = Invariants | PolicyActions | ActionConstraints | NextState | Reward | Advance | Termination

  /** What ends a trial without a result: the NullPointerException of
      resetState when the instance's domain was never loaded, an
      EvalException from resetState or from a call of step t, or the
      IllegalArgumentException that sizing the state and reward lists by a
      negative horizon raises. */
  datatype TrialError = NoDomain | ResetFailed | NegativeCapacity | StepFailed(t: nat, stage: Stage)

  /** One completed step: the state it started from and the random source
      at that point, what the policy was passed, the actions it chose, the
      state computed from them (which the reward reads) and the reward. */
  datatype StepRecord = StepRecord(
    before: StateValue,
    rng: Rng,
    shown: Option<StateValue>,
    actions: Actions,
    after: StateValue,
    reward: real)

  /** The steps completed so far, the current (advanced) state and the
      random source. */
  datatype Trace = Trace(steps: seq<StepRecord>, final: StateValue, rng: Rng)

  datatype Outcome = Done(trace: Trace) | Failed(error: TrialError)

  datatype StepResult = Stepped(next: Trace, stop: bool) | StepError(error: TrialError)

  /** What the policy is passed at step t: nothing at the first step of an
      instance that has observation variables, the current state otherwise. */
  function PolicyView(s: StateValue, t: nat): (r: Option<StateValue>)
    ensures r.None? <==> |s.observNames| > 0 && t == 0
    ensures r.Some? ==> r.value == s
  {
    if |s.observNames| > 0 && t == 0 then None else Some(s)
  }

  /** What the policy has been passed, step by step. */
  function ShownSoFar(steps: seq<StepRecord>): (r: seq<Option<StateValue>>)
    ensures |r| == |steps|
    decreases |steps|
  {
    if steps == [] then [] else ShownSoFar(steps[..|steps| - 1]) + [steps[|steps| - 1].shown]
  }

  /** The rewards of the steps, in order. */
  function Rewards(steps: seq<StepRecord>): (r: seq<real>)
    ensures |r| == |steps|
    ensures forall k :: 0 <= k < |steps| ==> r[k] == steps[k].reward
    decreases |steps|
  {
    if steps == [] then [] else Rewards(steps[..|steps| - 1]) + [steps[|steps| - 1].reward]
  }

  /** One iteration of the loop: check invariants, ask the policy, check the
      actions, compute the next state, read the reward, advance, and test
      the terminate-when condition on the advanced state. */
  function Step(m: Dynamics, inst: Instance, p: Policy, tr: Trace): (r: StepResult)
    ensures r.Stepped? ==>
      && |r.next.steps| == |tr.steps| + 1
      && r.next.steps[..|tr.steps|] == tr.steps
      && r.next.steps[|tr.steps|].before == tr.final
      && r.next.steps[|tr.steps|].rng == tr.rng
      && r.next.steps[|tr.steps|].shown == PolicyView(tr.final, |tr.steps|)
    ensures r.Stepped? ==>
      (r.stop <==> inst.termCond.Some? && m.terminated(r.next.final, inst.termCond.value) == Some(true))
    ensures r.Stepped? && !r.stop && inst.termCond.Some? ==>
      m.terminated(r.next.final, inst.termCond.value) == Some(false)
    ensures r.StepError? ==> r.error.StepFailed? && r.error.t == |tr.steps|
  {
    var t := |tr.steps|;
    var s := tr.final;
    if !m.invariantsHold(s) then StepError(StepFailed(t, Invariants))
    else
      var shown := PolicyView(s, t);
      match p.getActions(ShownSoFar(tr.steps) + [shown])
      case None => StepError(StepFailed(t, PolicyActions))
      case Some(actions) =>
        if !m.actionsLegal(s, actions) then StepError(StepFailed(t, ActionConstraints))
        else
          match m.nextState(s, actions, tr.rng)
          case None => StepError(StepFailed(t, NextState))
          case Some((after, rng1)) =>
            match m.reward(after, rng1)
            case None => StepError(StepFailed(t, Reward))
            case Some((reward, rng2)) =>
              match m.advance(after)
              case None => StepError(StepFailed(t, Advance))
              case Some(advanced) =>
                var next := Trace(tr.steps + [StepRecord(s, tr.rng, shown, actions, after, reward)], advanced, rng2);
                match inst.termCond
                case None => Stepped(next, false)
                case Some(c) =>
                  match m.terminated(advanced, c)
                  case None => StepError(StepFailed(t, Termination))
                  case Some(stop) => Stepped(next, stop)
  }

  /** A step extends the rewards and the policy's history by one entry. */
  lemma StepExtends(m: Dynamics, inst: Instance, p: Policy, tr: Trace)
    requires Step(m, inst, p, tr).Stepped?
    ensures var next := Step(m, inst, p, tr).next;
      && Rewards(next.steps) == Rewards(tr.steps) + [next.steps[|tr.steps|].reward]
      && ShownSoFar(next.steps) == ShownSoFar(tr.steps) + [next.steps[|tr.steps|].shown]
  {
    var next := Step(m, inst, p, tr).next;
    assert next.steps[..|next.steps| - 1] == tr.steps;
  }

  /** The rest of a trial from the trace reached so far. A finished rest
      keeps at least the steps already taken; an EvalException names a step
      that the horizon allows and that the trace had not yet completed. */
  function RollFrom(m: Dynamics, inst: Instance, p: Policy, tr: Trace): (r: Outcome)
    ensures r.Done? ==> |tr.steps| <= |r.trace.steps| && r.trace.steps[..|tr.steps|] == tr.steps
    ensures r.Failed? ==> r.error.StepFailed? && |tr.steps| <= r.error.t < inst.horizon
    decreases inst.horizon - |tr.steps|
  {
    if |tr.steps| >= inst.horizon then Done(tr)
    else
      match Step(m, inst, p, tr)
      case StepError(e) => Failed(e)
      case Stepped(next, stop) =>
        if stop then Done(next)
        else
          var rest := RollFrom(m, inst, p, next);
          assert rest.Done? ==> rest.trace.steps[..|tr.steps|] == rest.trace.steps[..|next.steps|][..|tr.steps|];
          rest
  }

  /** One unfolding of the loop: a step inside the horizon either throws,
      which ends the trial, or is taken, after which the trial ends if the
      terminate-when condition holds and goes on from the new trace if not. */
  lemma RollFromStep(m: Dynamics, inst: Instance, p: Policy, tr: Trace)
    requires |tr.steps| < inst.horizon
    ensures var s := Step(m, inst, p, tr);
      && (s.StepError? ==> RollFrom(m, inst, p, tr) == Failed(s.error))
      && (s.Stepped? && s.stop ==> RollFrom(m, inst, p, tr) == Done(s.next))
      && (s.Stepped? && !s.stop ==> RollFrom(m, inst, p, tr) == RollFrom(m, inst, p, s.next))
  {
  }

  /** A whole trial: reset to the initial state, seed the random source,
      size the lists by the horizon, then run the loop. It fails in the
      reset exactly when initialisation fails, in the sizing exactly when the
      horizon is negative, and otherwise only in a step the horizon allows. */
  function Simulate(m: Dynamics, inst: Instance, p: Policy, seed: int): (r: Outcome)
    ensures r == Failed(ResetFailed) <==> m.init.None?
    ensures r == Failed(NegativeCapacity) <==> m.init.Some? && inst.horizon < 0
    ensures r.Failed? && r.error.StepFailed? ==> r.error.t < inst.horizon
    ensures r.Done? ==> m.init.Some? && 0 <= inst.horizon
  {
    match m.init
    case None => Failed(ResetFailed)
    case Some(s0) =>
      if inst.horizon < 0 then Failed(NegativeCapacity)
      else RollFrom(m, inst, p, Trace([], s0, Rng(seed, 0)))
  }

  /** A finished rest-of-trial extends the trace it started from, runs at
      most to the horizon, takes a step if any remain, and stops short of
      the horizon only because the terminate-when condition held on the
      final (advanced) state. */
  lemma {:induction false} RolloutLength(m: Dynamics, inst: Instance, p: Policy, tr: Trace)
    requires RollFrom(m, inst, p, tr).Done?
    ensures var tr2 := RollFrom(m, inst, p, tr).trace;
      var n0, n := |tr.steps|, |tr2.steps|;
      && n0 <= n && tr2.steps[..n0] == tr.steps
      && n <= (if inst.horizon > n0 then inst.horizon else n0)
      && (n0 < inst.horizon ==> n0 < n && tr2.steps[n0].before == tr.final && tr2.steps[n0].rng == tr.rng)
      && (n == n0 ==> tr2 == tr)
      && (n < inst.horizon ==>
            inst.termCond.Some? && m.terminated(tr2.final, inst.termCond.value) == Some(true))
    decreases inst.horizon - |tr.steps|
  {
    if |tr.steps| < inst.horizon {
      var r := Step(m, inst, p, tr);
      if !r.stop {
        RolloutLength(m, inst, p, r.next);
        var tr2 := RollFrom(m, inst, p, tr).trace;
        var n0 := |tr.steps|;
        assert tr2.steps[..n0 + 1][..n0] == tr2.steps[..n0];
      }
    }
  }

  /** The policy is passed nothing exactly at step 0 of a state with
      observation variables, and the state the step starts from otherwise. */
  lemma {:induction false} ObservationMasking(m: Dynamics, inst: Instance, p: Policy, tr: Trace)
    requires RollFrom(m, inst, p, tr).Done?
    ensures var tr2 := RollFrom(m, inst, p, tr).trace;
      forall k :: |tr.steps| <= k < |tr2.steps| ==>
        tr2.steps[k].shown == PolicyView(tr2.steps[k].before, k)
    decreases inst.horizon - |tr.steps|
  {
    if |tr.steps| < inst.horizon {
      var r := Step(m, inst, p, tr);
      var tr2 := RollFrom(m, inst, p, tr).trace;
      var n0 := |tr.steps|;
      RollFromStep(m, inst, p, tr);
      if !r.stop {
        ObservationMasking(m, inst, p, r.next);
        assert tr2.steps[n0] == tr2.steps[..n0 + 1][n0] == r.next.steps[n0];
      }
    }
  }

  /** The loop stops at the first step after which the terminate-when
      condition holds: on the state every later step started from (the
      advanced state of the step before) it evaluated to false. */
  lemma {:induction false} StopsAtFirstTermination(m: Dynamics, inst: Instance, p: Policy, tr: Trace)
    requires RollFrom(m, inst, p, tr).Done? && inst.termCond.Some?
    ensures var tr2 := RollFrom(m, inst, p, tr).trace;
      forall k :: |tr.steps| < k < |tr2.steps| ==>
        m.terminated(tr2.steps[k].before, inst.termCond.value) == Some(false)
    decreases inst.horizon - |tr.steps|
  {
    if |tr.steps| < inst.horizon {
      var r := Step(m, inst, p, tr);
      if !r.stop {
        var tr2 := RollFrom(m, inst, p, tr).trace;
        var n0 := |tr.steps|;
        StopsAtFirstTermination(m, inst, p, r.next);
        RolloutLength(m, inst, p, r.next);
        if n0 + 1 < |tr2.steps| {
          assert tr2.steps[n0 + 1].before == r.next.final;
        }
      }
    }
  }

  /** How step k of a trace follows from the calls of the loop: the
      invariants held on the state it started from; the actions are the
      policy's answer to everything it had been passed up to this step; they
      were legal; the state they produced is the one the reward was read
      from, before the advance; and the advanced state and the random source
      after the reward are where the next step (or the trace) starts. */
  ghost predicate Chained(m: Dynamics, p: Policy, tr: Trace, k: nat)
    requires k < |tr.steps|
  {
    var st := tr.steps[k];
    var nextBefore := if k + 1 < |tr.steps| then tr.steps[k + 1].before else tr.final;
    var nextRng := if k + 1 < |tr.steps| then tr.steps[k + 1].rng else tr.rng;
    var computed := m.nextState(st.before, st.actions, st.rng);
    && m.invariantsHold(st.before)
    && p.getActions(ShownSoFar(tr.steps[..k + 1])) == Some(st.actions)
    && m.actionsLegal(st.before, st.actions)
    && computed.Some? && computed.value.0 == st.after
    && m.reward(st.after, computed.value.1) == Some((st.reward, nextRng))
    && m.advance(st.after) == Some(nextBefore)
  }

  /** The step a completed iteration adds is chained to the trace. */
  lemma StepChained(m: Dynamics, inst: Instance, p: Policy, tr: Trace)
    requires Step(m, inst, p, tr).Stepped?
    ensures Chained(m, p, Step(m, inst, p, tr).next, |tr.steps|)
  {
    var next := Step(m, inst, p, tr).next;
    StepExtends(m, inst, p, tr);
    assert next.steps[..|tr.steps| + 1] == next.steps;
  }

  /** A chained last step stays chained once the trace goes on from where
      it ended. */
  lemma ChainedCarries(m: Dynamics, p: Policy, tr: Trace, tr2: Trace, k: nat)
    requires |tr.steps| == k + 1 && k < |tr2.steps| && tr2.steps[..k + 1] == tr.steps
    requires Chained(m, p, tr, k)
    requires k + 1 < |tr2.steps| ==> tr2.steps[k + 1].before == tr.final && tr2.steps[k + 1].rng == tr.rng
    requires k + 1 == |tr2.steps| ==> tr2.final == tr.final && tr2.rng == tr.rng
    ensures Chained(m, p, tr2, k)
  {
    assert tr.steps[..k + 1] == tr.steps;
    assert tr2.steps[k] == tr.steps[k];
  }

  /** Every step a finished rest-of-trial takes is chained: the trace is
      the run of the loop's calls, step after step. */
  lemma {:induction false} TraceIsChain(m: Dynamics, inst: Instance, p: Policy, tr: Trace)
    requires RollFrom(m, inst, p, tr).Done?
    ensures var tr2 := RollFrom(m, inst, p, tr).trace;
      forall k :: |tr.steps| <= k < |tr2.steps| ==> Chained(m, p, tr2, k)
    decreases inst.horizon - |tr.steps|
  {
    if |tr.steps| < inst.horizon {
      var r := Step(m, inst, p, tr);
      var n0 := |tr.steps|;
      var tr2 := RollFrom(m, inst, p, tr).trace;
      StepChained(m, inst, p, tr);
      if r.stop {
        assert tr2 == r.next;
      } else {
        assert RollFrom(m, inst, p, tr) == RollFrom(m, inst, p, r.next);
        TraceIsChain(m, inst, p, r.next);
        RolloutLength(m, inst, p, r.next);
        ChainedCarries(m, p, r.next, tr2, n0);
      }
    }
  }

  /** The shape of a whole trial: at most horizon steps, fewer only by the
      terminate-when condition, starting from the initial state, with the
      policy masked exactly at step 0 when observations exist, and every
      step chained to the next. */
  lemma TrialShape(m: Dynamics, inst: Instance, p: Policy, seed: int)
    requires Simulate(m, inst, p, seed).Done?
    ensures var tr := Simulate(m, inst, p, seed).trace;
      var n := |tr.steps|;
      && m.init.Some?
      && 0 <= inst.horizon && n <= inst.horizon
      && (0 < inst.horizon ==> 0 < n && tr.steps[0].before == m.init.value && tr.steps[0].rng == Rng(seed, 0))
      && (n < inst.horizon ==>
            inst.termCond.Some? && m.terminated(tr.final, inst.termCond.value) == Some(true))
      && (forall k :: 0 <= k < n ==> tr.steps[k].shown == PolicyView(tr.steps[k].before, k))
      && (forall k :: 0 <= k < n ==> Chained(m, p, tr, k))
  {
    var tr0 := Trace([], m.init.value, Rng(seed, 0));
    RolloutLength(m, inst, p, tr0);
    ObservationMasking(m, inst, p, tr0);
    TraceIsChain(m, inst, p, tr0);
    var tr := Simulate(m, inst, p, seed).trace;
    if 0 < inst.horizon {
      var r := Step(m, inst, p, tr0);
      if r.stop {
        assert tr == r.next;
      } else {
        RollFromKeepsPrefix(m, inst, p, r.next);
        assert tr.steps[0] == r.next.steps[0];
      }
    }
  }

  /** A finished rest-of-trial keeps every step already taken. */
  lemma {:induction false} RollFromKeepsPrefix(m: Dynamics, inst: Instance, p: Policy, tr: Trace)
    requires RollFrom(m, inst, p, tr).Done?
    ensures var tr2 := RollFrom(m, inst, p, tr).trace;
      |tr.steps| <= |tr2.steps| && forall k :: 0 <= k < |tr.steps| ==> tr2.steps[k] == tr.steps[k]
  {
    RolloutLength(m, inst, p, tr);
    var tr2 := RollFrom(m, inst, p, tr).trace;
    forall k | 0 <= k < |tr.steps| ensures tr2.steps[k] == tr.steps[k] {
      assert tr2.steps[..|tr.steps|][k] == tr2.steps[k];
    }
  }
}

=== FILE: simulator.dfy ===
/** The Simulator object: it owns one rddl.State whose content each trial
    changes in place, a random source, and the logger's fields. `Run` is
    proved against the trial function of module Rollout, `WriteData` against
    the logging function of module TrajectoryLog, and `GetStateDescription`
    against the column function of module StateDescription. */
module Sim {
  import opened RddlState
  import opened Text
  import opened Setup
  import opened StateDescription
  import opened Rollout
  import opened TrajectoryLog

  /** An rddl.State object: the simulator updates its content in place. */
  class State {
    var value: StateValue

    constructor ()
      ensures value == EmptyState
    {
      value := EmptyState;
    }
  }

  /** Recording one reward: the list grows by it, the running return adds it
      at the current discount, and the discount shrinks by the factor. */
  method AddReward(rewards: seq<real>, accumReward: real, curDiscount: real, reward: real, discount: real)
    returns (rewards': seq<real>, accumReward': real, curDiscount': real)
    requires accumReward == DiscountedSum(rewards, discount) && curDiscount == Power(discount, |rewards|)
    ensures rewards' == rewards + [reward]
    ensures accumReward' == DiscountedSum(rewards', discount) && curDiscount' == Power(discount, |rewards'|)
  {
    DiscountedSumSnoc(rewards, reward, discount, accumReward, curDiscount);
    rewards' := rewards + [reward];
    accumReward' := accumReward + curDiscount * reward;
    curDiscount' := curDiscount * discount;
  }

  /** A step's block in the row: a tab after it unless it is the last. */
  method AppendBlock(ghost blocks: seq<string>, n: nat, i: nat, body: string, block: string) returns (body': string)
    requires n == |blocks| && i < n && block == blocks[i]
    requires body == Join(blocks[..i], '\t') + (if 0 < i then "\t" else "")
    ensures body' == Join(blocks[..i + 1], '\t') + (if i + 1 < |blocks| then "\t" else "")
  {
    JoinSnoc(blocks, i, '\t');
    if i < n - 1 {
      body' := body + block + "\t";
    } else {
      body' := body + block;
    }
  }

  /** How one iteration of run's loop ends: an EvalException, or the view
      the policy was passed, the reward, and whether the terminate-when
      condition now holds. */
  datatype Iteration = Threw(error: TrialError) | Went(shown: Option<StateValue>, reward: real, stop: bool)

  /** What `run` gives back: its Result (the accumulated discounted reward
      and the list of rewards), or the EvalException it throws. */
  datatype TrialOutcome = Finished(accumReward: real, rewards: seq<real>) | Thrown(error: TrialError)

  /** One value's column: a Boolean as 1 or 0, anything else as its text,
      then a tab. */
  method ValueColumn(value: Value) returns (out: string)
    ensures out == ValueText(value) + "\t"
  {
    match value {
      case BoolValue(b) => out := if b then "1\t" else "0\t";
      case OtherValue(t) => out := t + "\t";
    }
  }

  /** The columns of `pvar`'s values at the groundings `gs`, in order. */
  method ValueColumns(v: StateValue, category: string, source: PVarName, pvar: PVarName, gs: seq<Grounding>)
    returns (out: string)
    ensures out == RenderAll(GroundCells(v, category, source, pvar, gs))
  {
    out := "";
    for k := 0 to |gs|
      invariant out == RenderAll(GroundCells(v, category, source, pvar, gs[..k]))
    {
      var value := v.assign(pvar, gs[k]);
      var column := ValueColumn(value);
      out := out + column;
      GroundCellsSnoc(v, category, source, pvar, gs, k);
      RenderSnoc(GroundCells(v, category, source, pvar, gs[..k]), Cell(category, source, pvar, gs[k], value));
    }
    assert gs[..|gs|] == gs;
  }

  class Simulator {
    /** The operations of `_state` for this domain, nonfluents and instance. */
    const model: Dynamics
    const inst: Instance
    const nonFluents: Option<NonFluents>
    const domain: Option<Domain>
    const pomdp: bool
    /** The text Java gives a double in string concatenation. */
    const formatReward: real -> string
    /** `_state`: one object, reused by every trial. */
    const state: State
    var rand: Rng
    var started: bool
    var sb: string
    var file: FileRecord

    /** The fields the constructor sets once Configure has accepted the
        instance name; `disk` is the trajectory file as found on disk. */
    constructor (cfg: Config, m: Dynamics, format: real -> string, disk: FileRecord)
      ensures model == m && inst == cfg.inst && nonFluents == cfg.nonFluents
      ensures domain == cfg.domain && pomdp == cfg.pomdp && formatReward == format
      ensures fresh(state) && state.value == EmptyState
      ensures !started && sb == "" && file == disk
    {
      model := m;
      inst := cfg.inst;
      nonFluents := cfg.nonFluents;
      domain := cfg.domain;
      pomdp := cfg.pomdp;
      formatReward := format;
      state := new State();
      rand := Rng(0, 0);
      started := false;
      sb := "";
      file := disk;
    }

    /** The logger's fields as a value. */
    function LogView(): LogState
      reads this
    {
      LogState(started, sb, file)
    }

    /** The blocks of a row for a trial whose steps are all rendered from
        one state's description `desc`. */
    function SameBlocks(desc: string, rewards: seq<real>): seq<string>
    {
      seq(|rewards|, k requires 0 <= k < |rewards| => desc + formatReward(rewards[k]))
    }

    /** The row `run` logs for a finished trial: every step's block is the
        description of the final state, since each entry of its state list
        is the one `_state` object. */
    function TrialRow(trial: int, tr: Trace): string
    {
      Row(trial, SameBlocks(Describe(tr.final, pomdp), Rewards(tr.steps)))
    }

    /** The blocks `write_data` renders from a list of state objects, read
        at the time of writing. */
    ghost function RowBlocks(states: seq<State>, rewards: seq<real>): (r: seq<string>)
      requires |states| == |rewards|
      reads states
      ensures |r| == |states|
      ensures forall k :: 0 <= k < |states| ==>
        r[k] == Describe(states[k].value, pomdp) + formatReward(rewards[k])
      decreases |states|
    {
      if states == [] then []
      else
        var n := |states|;
        RowBlocks(states[..n - 1], rewards[..n - 1])
        + [Describe(states[n - 1].value, pomdp) + formatReward(rewards[n - 1])]
    }

    /** A trial of this simulator: resetState dereferences the domain
        first, so without a loaded domain every trial throws before the
        state is touched; otherwise it is the trial of module Rollout. */
    function Trial(p: Policy, seed: int): (r: Outcome)
      ensures r == Failed(NoDomain) <==> domain.None?
      ensures r.Done? ==> domain.Some? && model.init.Some? && 0 <= inst.horizon
    {
      if domain.None? then Failed(NoDomain) else Simulate(model, inst, p, seed)
    }

    /** resetState: `_state.init` with the problem's data, read from the
        domain, the nonfluents and the instance. */
    method ResetState() returns (error: Option<TrialError>)
      modifies state
      ensures domain.None? ==> error == Some(NoDomain) && state.value == old(state.value)
      ensures domain.Some? && model.init.None? ==> error == Some(ResetFailed)
      ensures error.None? <==> domain.Some? && model.init.Some?
      ensures error.None? ==> state.value == model.init.value
    {
      if domain.None? {
        return Some(NoDomain);
      }
      match model.init {
        case None =>
          error := Some(ResetFailed);
        case Some(s0) =>
          state.value := s0;
          error := None;
      }
    }

    /** The columns of one variable of a type-map entry: none when it is a
        non-derived intermediate, when its category is filtered out, or when
        generating its groundings fails; otherwise its values, then the
        observation variable's values at the same groundings if that is
        declared. */
    method VarColumns(v: StateValue, category: string, p: PVarName) returns (out: string)
      ensures out == RenderAll(VarCells(v, pomdp, category, p))
    {
      out := "";
      if p.unprimed in v.pvariables && v.pvariables[p.unprimed].IntermDef?
         && !v.pvariables[p.unprimed].derived {
        return;
      }
      var varType := Relabel(category);
      if varType == "nonfluent" || (pomdp && varType == "states") {
        return;
      }
      match v.atoms(p) {
        case None =>
          // EvalException from generateAtoms: the variable is skipped
        case Some(gfluents) =>
          out := ValueColumns(v, category, p, p, gfluents);
          ghost var own := GroundCells(v, category, p, p, gfluents);
          if ObsName in v.pvariables {
            var obsText := ValueColumns(v, category, p, ObsVar, gfluents);
            out := out + obsText;
            RenderAppend(own, GroundCells(v, category, p, ObsVar, gfluents));
          } else {
            assert own + [] == own;
          }
      }
    }

    /** The columns of the variables of one type-map entry, in order. */
    method EntryColumns(v: StateValue, e: TypeEntry) returns (out: string)
      ensures out == RenderAll(VarsCells(v, pomdp, e.category, e.vars))
    {
      out := "";
      for j := 0 to |e.vars|
        invariant out == RenderAll(VarsCells(v, pomdp, e.category, e.vars[..j]))
      {
        var columns := VarColumns(v, e.category, e.vars[j]);
        out := out + columns;
        VarsCellsSnoc(v, pomdp, e.category, e.vars, j);
        RenderAppend(VarsCells(v, pomdp, e.category, e.vars[..j]), VarCells(v, pomdp, e.category, e.vars[j]));
      }
      assert e.vars[..|e.vars|] == e.vars;
    }

    /** getStateDescription: every type-map entry's shown columns, in order. */
    method GetStateDescription(s: State) returns (d: string)
      ensures d == Describe(s.value, pomdp)
    {
      var v := s.value;
      d := "";
      for i := 0 to |v.typeMap|
        invariant d == RenderAll(EntriesCells(v, pomdp, v.typeMap[..i]))
      {
        var e := v.typeMap[i];
        var columns := EntryColumns(v, e);
        d := d + columns;
        EntriesCellsSnoc(v, pomdp, v.typeMap, i);
        RenderAppend(EntriesCells(v, pomdp, v.typeMap[..i]), VarsCells(v, pomdp, e.category, e.vars));
      }
      assert v.typeMap[..|v.typeMap|] == v.typeMap;
    }

    /** The steps' blocks of a row: each state's description followed by
        the reward, with a tab between steps and none after the last. */
    method RowBody(states: seq<State>, rewards: seq<real>) returns (body: string)
      requires |states| == |rewards|
      ensures body == Join(old(RowBlocks(states, rewards)), '\t')
    {
      ghost var blocks := RowBlocks(states, rewards);
      var n := |states|;
      body := "";
      for i := 0 to n
        invariant body == Join(blocks[..i], '\t') + (if 0 < i < n then "\t" else "")
      {
        var stateStr := GetStateDescription(states[i]);
        var block := stateStr + formatReward(rewards[i]);
        assert block == blocks[i];
        body := AppendBlock(blocks, n, i, body, block);
      }
      assert blocks[..n] == blocks;
    }

    /** A trial's row: its number and a tab, then the steps' blocks. */
    method RowText(states: seq<State>, rewards: seq<real>, trial: int) returns (row: string)
      requires |states| == |rewards|
      ensures row == Row(trial, old(RowBlocks(states, rewards)))
    {
      var body := RowBody(states, rewards);
      row := IntText(trial) + "\t" + body;
    }

    /** write_data: start or continue the run's file and buffer, append the
        trial's row, and hand the buffer to the file every thousandth trial. */
    method WriteData(states: seq<State>, rewards: seq<real>, trial: int)
      requires |states| == |rewards|
      modifies this`started, this`sb, this`file
      ensures LogView() == Log(old(LogView()), trial, Row(trial, old(RowBlocks(states, rewards))))
    {
      ghost var ls := LogView();
      ghost var restart := !file.present || !started;
      ghost var blocks := RowBlocks(states, rewards);
      if !file.present {
        file := FileRecord(true, "");
        sb := "";
      } else if !started {
        file := FileRecord(true, "");
        sb := "";
      } else {
        sb := sb + "\n";
      }
      started := true;
      assert RowBlocks(states, rewards) == blocks;
      var row := RowText(states, rewards, trial);
      sb := sb + row;
      assert sb == (if restart then "" else ls.buffer + "\n") + row;
      if trial % FlushInterval == 0 {
        file := FileRecord(true, file.written + sb);
        sb := "";
      }
      assert LogView() == Log(ls, trial, row);
    }

    /** One iteration of run's loop, up to the terminate-when test: the
        invariant check, the policy's choice, the action check, the next
        state, the reward, and the advance. */
    method StepOnce(p: Policy, passed: seq<Option<StateValue>>, ghost tr: Trace) returns (r: Iteration)
      requires state.value == tr.final && rand == tr.rng && passed == ShownSoFar(tr.steps)
      modifies state, this`rand
      ensures match Step(model, inst, p, tr)
        case StepError(e) => r == Threw(e)
        case Stepped(next, stop) =>
          && r == Went(next.steps[|tr.steps|].shown, next.steps[|tr.steps|].reward, stop)
          && state.value == next.final && rand == next.rng
    {
      var t := |passed|;
      if !model.invariantsHold(state.value) {
        return Threw(StepFailed(t, Invariants));
      }
      var stateInfo := PolicyView(state.value, t);
      var actions := p.getActions(passed + [stateInfo]);
      if actions.None? {
        return Threw(StepFailed(t, PolicyActions));
      }
      if !model.actionsLegal(state.value, actions.value) {
        return Threw(StepFailed(t, ActionConstraints));
      }
      var next := model.nextState(state.value, actions.value, rand);
      if next.None? {
        return Threw(StepFailed(t, NextState));
      }
      state.value, rand := next.value.0, next.value.1;
      var sampled := model.reward(state.value, rand);
      if sampled.None? {
        return Threw(StepFailed(t, Reward));
      }
      var reward := sampled.value.0;
      rand := sampled.value.1;
      var advanced := model.advance(state.value);
      if advanced.None? {
        return Threw(StepFailed(t, Advance));
      }
      state.value := advanced.value;
      var stop := false;
      if inst.termCond.Some? {
        var holds := model.terminated(state.value, inst.termCond.value);
        if holds.None? {
          return Threw(StepFailed(t, Termination));
        }
        stop := holds.value;
      }
      r := Went(stateInfo, reward, stop);
    }

    /** The loop of run, from the state just reset and seeded: the steps
        up to the horizon or to the first step after which the
        terminate-when condition holds. Every entry of `states` is the one
        `_state` object. */
    method RunSteps(p: Policy, ghost start: Trace)
      returns (failure: Option<TrialError>, accumReward: real, rewards: seq<real>, states: seq<State>, ghost tr: Trace)
      requires start.steps == [] && state.value == start.final && rand == start.rng
      modifies state, this`rand
      ensures match RollFrom(model, inst, p, start)
        case Failed(e) => failure == Some(e)
        case Done(fin) =>
          && failure == None && tr == fin
          && state.value == fin.final && rand == fin.rng
          && rewards == Rewards(fin.steps) && accumReward == DiscountedSum(rewards, inst.discount)
          && |states| == |rewards| && forall k :: 0 <= k < |states| ==> states[k] == state
    {
      accumReward := 0.0;
      var curDiscount: real := 1.0;
      states := [];
      rewards := [];
      var passed: seq<Option<StateValue>> := [];
      tr := start;
      var t := 0;
      while t < inst.horizon
        invariant 0 <= t == |tr.steps| == |states|
        invariant state.value == tr.final && rand == tr.rng
        invariant RollFrom(model, inst, p, start) == RollFrom(model, inst, p, tr)
        invariant rewards == Rewards(tr.steps) && passed == ShownSoFar(tr.steps)
        invariant forall k :: 0 <= k < t ==> states[k] == state
        invariant accumReward == DiscountedSum(rewards, inst.discount)
        invariant curDiscount == Power(inst.discount, t)
        decreases inst.horizon - t
      {
        ghost var step := Step(model, inst, p, tr);
        RollFromStep(model, inst, p, tr);
        var r;
        r, passed, states, rewards, accumReward, curDiscount := Iterate(p, passed, states, rewards, accumReward, curDiscount, tr);
        if r.Threw? {
          return Some(r.error), accumReward, rewards, states, tr;
        }
        tr := step.next;
        if r.stop {
          break;
        }
        t := t + 1;
      }
      failure := None;
    }

    /** The body of run's loop: one step, then the state list, the reward
        list and the discounted return extended by it. */
    method Iterate(p: Policy, passed: seq<Option<StateValue>>, states: seq<State>, rewards: seq<real>,
                   accumReward: real, curDiscount: real, ghost tr: Trace)
      returns (r: Iteration, passed': seq<Option<StateValue>>, states': seq<State>, rewards': seq<real>,
               accumReward': real, curDiscount': real)
      requires state.value == tr.final && rand == tr.rng
      requires passed == ShownSoFar(tr.steps) && rewards == Rewards(tr.steps) && |states| == |tr.steps|
      requires forall k :: 0 <= k < |states| ==> states[k] == state
      requires accumReward == DiscountedSum(rewards, inst.discount) && curDiscount == Power(inst.discount, |tr.steps|)
      modifies state, this`rand
      ensures match Step(model, inst, p, tr)
        case StepError(e) => r == Threw(e)
        case Stepped(next, stop) =>
          && r.Went? && r.stop == stop
          && state.value == next.final && rand == next.rng
          && passed' == ShownSoFar(next.steps) && rewards' == Rewards(next.steps)
          && |states'| == |next.steps| && (forall k :: 0 <= k < |states'| ==> states'[k] == state)
          && accumReward' == DiscountedSum(rewards', inst.discount)
          && curDiscount' == Power(inst.discount, |next.steps|)
    {
      ghost var step := Step(model, inst, p, tr);
      passed', states', rewards', accumReward', curDiscount' := passed, states, rewards, accumReward, curDiscount;
      r := StepOnce(p, passed, tr);
      if r.Threw? {
        return;
      }
      StepExtends(model, inst, p, tr);
      passed' := passed + [r.shown];
      states' := states + [state];
      rewards', accumReward', curDiscount' := AddReward(rewards, accumReward, curDiscount, r.reward, inst.discount);
    }

    /** run: one trial. An EvalException ends it before anything is logged;
        a finished trial logs its row and returns the discounted return. */
    method Run(p: Policy, seed: int, trial: int) returns (out: TrialOutcome)
      modifies this, state
      ensures match Trial(p, seed)
        case Failed(e) =>
          && out == Thrown(e) && started == old(started) && sb == old(sb) && file == old(file)
          && (e == NegativeCapacity ==> state.value == model.init.value && rand == Rng(seed, 0))
        case Done(tr) =>
          && out == Finished(DiscountedSum(Rewards(tr.steps), inst.discount), Rewards(tr.steps))
          && state.value == tr.final && rand == tr.rng
          && LogView() == Log(old(LogView()), trial, TrialRow(trial, tr))
    {
      var error := ResetState();
      if error.Some? {
        return Thrown(error.value);
      }
      rand := Rng(seed, 0);
      if inst.horizon < 0 {
        // new ArrayList with a negative capacity
        return Thrown(NegativeCapacity);
      }
      var failure, accumReward, rewards, states, tr := RunSteps(p, Trace([], state.value, rand));
      if failure.Some? {
        return Thrown(failure.value);
      }
      assert RowBlocks(states, rewards) == SameBlocks(Describe(state.value, pomdp), rewards);
      WriteData(states, rewards, trial);
      out := Finished(accumReward, rewards);
    }

    /** The end of main, corrected: write the remaining buffer, then close. */
    method Close()
      modifies this`file, this`sb
      ensures file == CloseFlushing(old(LogView())) && sb == ""
    {
      file := FileRecord(file.present, file.written + sb);
      sb := "";
    }

    /** The rows logged for trials 1..|rows| that ran with the first
        policies and seeds: each of those trials finished. */
    predicate Completed(policies: seq<Policy>, seeds: seq<int>, rows: seq<string>)
    {
      && |rows| <= |policies| && |rows| <= |seeds|
      && forall k :: 0 <= k < |rows| ==>
        Trial(policies[k], seeds[k]).Done?
        && rows[k] == TrialRow(k + 1, Trial(policies[k], seeds[k]).trace)
    }

    /** A further finished trial extends the completed rows by its row. */
    lemma CompletedSnoc(policies: seq<Policy>, seeds: seq<int>, rows: seq<string>)
      requires Completed(policies, seeds, rows) && |rows| < |policies| && |rows| < |seeds|
      requires Trial(policies[|rows|], seeds[|rows|]).Done?
      ensures Completed(policies, seeds, rows + [TrialRow(|rows| + 1, Trial(policies[|rows|], seeds[|rows|]).trace)])
    {
    }

    /** main's loop: trial i (from 1) runs with the i-th policy object and
        seed; an EvalException ends the batch at once, otherwise the log is
        closed after the last trial. */
    method RunBatch(policies: seq<Policy>, seeds: seq<int>) returns (completed: nat, ghost rows: seq<string>)
      requires |policies| == |seeds|
      modifies this, state
      ensures |rows| == completed && Completed(policies, seeds, rows)
      ensures completed < |policies| ==>
        Trial(policies[completed], seeds[completed]).Failed?
        && LogView() == LogTrials(old(LogView()), 1, rows)
      ensures completed == |policies| ==>
        var logged := LogTrials(old(LogView()), 1, rows);
        LogView() == LogState(logged.started, "", CloseFlushing(logged))
    {
      completed := 0;
      rows := [];
      while completed < |policies|
        invariant |rows| == completed && Completed(policies, seeds, rows)
        invariant LogView() == LogTrials(old(LogView()), 1, rows)
      {
        var r := Run(policies[completed], seeds[completed], completed + 1);
        if r.Thrown? {
          return;
        }
        ghost var outcome := Trial(policies[completed], seeds[completed]);
        assert outcome.Done?;
        ghost var row := TrialRow(completed + 1, outcome.trace);
        LogTrialsSnoc(old(LogView()), 1, rows, row);
        CompletedSnoc(policies, seeds, rows);
        rows := rows + [row];
        completed := completed + 1;
      }
      Close();
    }
  }
}

=== FILE: state_description.dfy ===
/** Which variables of a state the trajectory log shows, and how their values
    are written (Simulator.getStateDescription). The columns are first
    described as a sequence of cells, one per value written, in the order the
    simulator visits them; the text is the cells' values, each followed by a
    tab. */
module StateDescription {
  import opened RddlState
  import opened Text

  /** The observation variable whose values are appended after each shown
      variable's own values, grounding by grounding. */
  const ObsName: string := "running-obs"
  const ObsVar: PVarName := PVarName(ObsName, ObsName)

  /** The category label the filter compares: "interm" renamed "derived". */
  function Relabel(category: string): string
  {
    ReplaceAll(category, "interm", "derived")
  }

  /** Nonfluent columns never appear, and state columns do not appear for a
      partially observed instance. */
  predicate CategoryShown(category: string, pomdp: bool)
  {
    var tag := Relabel(category);
    tag != "nonfluent" && !(pomdp && tag == "states")
  }

  /** An intermediate variable is shown only when it is marked derived;
      every other variable (also one without a declaration) is shown. */
  predicate VarShown(s: StateValue, p: PVarName)
  {
    !(p.unprimed in s.pvariables
      && s.pvariables[p.unprimed].IntermDef?
      && !s.pvariables[p.unprimed].derived)
  }

  /** One written value: the entry's category, the variable whose
      groundings are visited (`source`), the variable read (`source` itself
      or the observation variable), the grounding and the value read. */
  datatype Cell = Cell(category: string, source: PVarName, pvar: PVarName, args: Grounding, value: Value)

  /** What every cell of a description satisfies. */
  predicate Sound(s: StateValue, pomdp: bool, c: Cell)
  {
    && CategoryShown(c.category, pomdp)
    && VarShown(s, c.source)
    && s.atoms(c.source).Some?
    && c.args in s.atoms(c.source).value
    && (c.pvar == c.source || (c.pvar == ObsVar && ObsName in s.pvariables))
    && c.value == s.assign(c.pvar, c.args)
  }

  /** The values of `pvar` at the groundings `gs`, in order. */
  function GroundCells(s: StateValue, category: string, source: PVarName, pvar: PVarName, gs: seq<Grounding>): (r: seq<Cell>)
    ensures |r| == |gs|
    decreases |gs|
  {
    if gs == [] then []
    else GroundCells(s, category, source, pvar, gs[..|gs| - 1])
         + [Cell(category, source, pvar, gs[|gs| - 1], s.assign(pvar, gs[|gs| - 1]))]
  }

  /** The k-th cell holds the value of `pvar` at the k-th grounding. */
  lemma {:induction false} GroundCellsAt(s: StateValue, category: string, source: PVarName, pvar: PVarName, gs: seq<Grounding>, k: nat)
    requires k < |gs|
    ensures GroundCells(s, category, source, pvar, gs)[k] == Cell(category, source, pvar, gs[k], s.assign(pvar, gs[k]))
    decreases |gs|
  {
    var init := gs[..|gs| - 1];
    if k < |gs| - 1 {
      GroundCellsAt(s, category, source, pvar, init, k);
      assert init[k] == gs[k];
    }
  }

  /** The cells of one variable: none when it is filtered out or when
      generating its groundings fails; otherwise its value at every grounding,
      then, if the observation variable is declared, the observation's value
      at the same groundings. */
  function VarCells(s: StateValue, pomdp: bool, category: string, p: PVarName): (r: seq<Cell>)
    ensures |r| == if VarShown(s, p) && CategoryShown(category, pomdp) && s.atoms(p).Some?
                   then |s.atoms(p).value| + (if ObsName in s.pvariables then |s.atoms(p).value| else 0)
                   else 0
  {
    if !VarShown(s, p) || !CategoryShown(category, pomdp) then []
    else
      match s.atoms(p)
      case None => []
      case Some(gs) =>
        GroundCells(s, category, p, p, gs)
        + (if ObsName in s.pvariables then GroundCells(s, category, p, ObsVar, gs) else [])
  }

  /** The cells of the variables of one type-map entry, in order. */
  function VarsCells(s: StateValue, pomdp: bool, category: string, vs: seq<PVarName>): seq<Cell>
    decreases |vs|
  {
    if vs == [] then []
    else VarsCells(s, pomdp, category, vs[..|vs| - 1]) + VarCells(s, pomdp, category, vs[|vs| - 1])
  }

  /** The cells of a sequence of type-map entries, in order. */
  function EntriesCells(s: StateValue, pomdp: bool, es: seq<TypeEntry>): seq<Cell>
    decreases |es|
  {
    if es == [] then []
    else
      var last := es[|es| - 1];
      EntriesCells(s, pomdp, es[..|es| - 1]) + VarsCells(s, pomdp, last.category, last.vars)
  }

  /** A variable's cells: none when it is filtered out or its groundings
      cannot be generated, otherwise one per grounding, twice that when the
      observation variable is declared; each is a sound cell of the
      variable. */
  lemma VarCellsSound(s: StateValue, pomdp: bool, category: string, p: PVarName)
    ensures |VarCells(s, pomdp, category, p)|
         == if VarShown(s, p) && CategoryShown(category, pomdp) && s.atoms(p).Some?
            then |s.atoms(p).value| * (if ObsName in s.pvariables then 2 else 1)
            else 0
    ensures forall c <- VarCells(s, pomdp, category, p) ::
      Sound(s, pomdp, c) && c.category == category && c.source == p
  {
    if VarShown(s, p) && CategoryShown(category, pomdp) && s.atoms(p).Some? {
      var gs := s.atoms(p).value;
      var own := GroundCells(s, category, p, p, gs);
      var obs := GroundCells(s, category, p, ObsVar, gs);
      forall k | 0 <= k < |gs| ensures own[k] == Cell(category, p, p, gs[k], s.assign(p, gs[k])) {
        GroundCellsAt(s, category, p, p, gs, k);
      }
      forall k | 0 <= k < |gs| ensures obs[k] == Cell(category, p, ObsVar, gs[k], s.assign(ObsVar, gs[k])) {
        GroundCellsAt(s, category, p, ObsVar, gs, k);
      }
    }
  }

  /** Every cell of an entry's variables is sound and belongs to one of
      them. */
  lemma {:induction false} VarsCellsSound(s: StateValue, pomdp: bool, category: string, vs: seq<PVarName>)
    ensures forall c <- VarsCells(s, pomdp, category, vs) ::
      Sound(s, pomdp, c) && c.category == category && c.source in vs
    decreases |vs|
  {
    if vs != [] {
      var init := vs[..|vs| - 1];
      var last := vs[|vs| - 1];
      VarsCellsSound(s, pomdp, category, init);
      VarCellsSound(s, pomdp, category, last);
      var front := VarsCells(s, pomdp, category, init);
      var back := VarCells(s, pomdp, category, last);
      assert VarsCells(s, pomdp, category, vs) == front + back;
      forall c: Cell | c in front ensures c.source in vs {
        assert c.source in init;
      }
    }
  }

  /** Every cell of a sequence of entries is sound and belongs to a
      variable of one of them. */
  lemma {:induction false} EntriesCellsSound(s: StateValue, pomdp: bool, es: seq<TypeEntry>)
    ensures forall c <- EntriesCells(s, pomdp, es) ::
      Sound(s, pomdp, c)
      && exists j :: 0 <= j < |es| && c.category == es[j].category && c.source in es[j].vars
    decreases |es|
  {
    if es != [] {
      var n := |es|;
      var init := es[..n - 1];
      var last := es[n - 1];
      EntriesCellsSound(s, pomdp, init);
      VarsCellsSound(s, pomdp, last.category, last.vars);
      var front := EntriesCells(s, pomdp, init);
      var back := VarsCells(s, pomdp, last.category, last.vars);
      assert EntriesCells(s, pomdp, es) == front + back;
      forall c: Cell | c in front + back
        ensures exists j :: 0 <= j < n && c.category == es[j].category && c.source in es[j].vars
      {
        if c in front {
          var j :| 0 <= j < n - 1 && c.category == init[j].category && c.source in init[j].vars;
          assert init[j] == es[j];
        } else {
          assert c.category == es[n - 1].category && c.source in es[n - 1].vars;
        }
      }
    }
  }

  /** Every cell of a state's description, in the order of its type map. */
  function Cells(s: StateValue, pomdp: bool): seq<Cell>
  {
    EntriesCells(s, pomdp, s.typeMap)
  }

  /** The text of one column: a Boolean as 1 or 0, anything else as its
      `toString`. */
  function ValueText(v: Value): string
  {
    match v
    case BoolValue(b) => if b then "1" else "0"
    case OtherValue(text) => text
  }

  /** The cells' texts, each followed by a tab. */
  function RenderAll(cells: seq<Cell>): string
    decreases |cells|
  {
    if cells == [] then ""
    else RenderAll(cells[..|cells| - 1]) + ValueText(cells[|cells| - 1].value) + "\t"
  }

  /** getStateDescription: the text of a state's shown columns. */
  function Describe(s: StateValue, pomdp: bool): (r: string)
    ensures r == "" <==> Cells(s, pomdp) == []
    ensures r != "" ==> r[|r| - 1] == '\t'
  {
    RenderAll(Cells(s, pomdp))
  }

  /** One more grounding adds one cell at the end. */
  lemma GroundCellsSnoc(s: StateValue, category: string, source: PVarName, pvar: PVarName, gs: seq<Grounding>, k: nat)
    requires k < |gs|
    ensures GroundCells(s, category, source, pvar, gs[..k + 1])
         == GroundCells(s, category, source, pvar, gs[..k]) + [Cell(category, source, pvar, gs[k], s.assign(pvar, gs[k]))]
  {
    assert gs[..k + 1][..k] == gs[..k];
  }

  /** One more variable adds its cells at the end. */
  lemma VarsCellsSnoc(s: StateValue, pomdp: bool, category: string, vs: seq<PVarName>, j: nat)
    requires j < |vs|
    ensures VarsCells(s, pomdp, category, vs[..j + 1])
         == VarsCells(s, pomdp, category, vs[..j]) + VarCells(s, pomdp, category, vs[j])
  {
    assert vs[..j + 1][..j] == vs[..j];
  }

  /** One more type-map entry adds its cells at the end. */
  lemma EntriesCellsSnoc(s: StateValue, pomdp: bool, es: seq<TypeEntry>, i: nat)
    requires i < |es|
    ensures EntriesCells(s, pomdp, es[..i + 1])
         == EntriesCells(s, pomdp, es[..i]) + VarsCells(s, pomdp, es[i].category, es[i].vars)
  {
    assert es[..i + 1][..i] == es[..i];
  }

  /** One more cell adds its text and a tab at the end. */
  lemma RenderSnoc(cells: seq<Cell>, c: Cell)
    ensures RenderAll(cells + [c]) == RenderAll(cells) + ValueText(c.value) + "\t"
  {
    assert (cells + [c])[..|cells|] == cells;
  }

  /** The text of two cell sequences one after the other. */
  lemma {:induction false} RenderAppend(a: seq<Cell>, b: seq<Cell>)
    ensures RenderAll(a + b) == RenderAll(a) + RenderAll(b)
    decreases |b|
  {
    if b != [] {
      var n := |b|;
      assert a + b == (a + b[..n - 1]) + [b[n - 1]];
      assert b == b[..n - 1] + [b[n - 1]];
      RenderSnoc(a + b[..n - 1], b[n - 1]);
      RenderSnoc(b[..n - 1], b[n - 1]);
      RenderAppend(a, b[..n - 1]);
    } else {
      assert a + b == a;
    }
  }

  /** Renaming "interm" to "derived" never changes what the filter keeps:
      the comparison acts as if made on the raw category. */
  lemma RelabelKeepsFilter(category: string, pomdp: bool)
    ensures CategoryShown(category, pomdp) <==> category != "nonfluent" && !(pomdp && category == "states")
  {
    var tag := Relabel(category);
    ReplaceAllLeavesMark(category, "interm", "derived", 'd');
    if category == "nonfluent" || category == "states" {
      ContainsNeedsFirst(category, "interm");
    }
    assert 'd' !in "nonfluent" && 'd' !in "states";
  }

  /** No column of a description belongs to a nonfluent, nor, for a
      partially observed instance, to a state variable; every column holds
      the state's own value of a shown variable at one of its groundings. */
  lemma DescriptionHidesMaskedColumns(s: StateValue, pomdp: bool)
    ensures forall c <- Cells(s, pomdp) ::
      && c.category != "nonfluent"
      && (pomdp ==> c.category != "states")
      && VarShown(s, c.source)
      && c.value == s.assign(c.pvar, c.args)
  {
    EntriesCellsSound(s, pomdp, s.typeMap);
    forall c <- Cells(s, pomdp)
      ensures c.category != "nonfluent" && (pomdp ==> c.category != "states")
    {
      RelabelKeepsFilter(c.category, pomdp);
    }
  }

  /** Cell sequences written one after the other. */
  function Concat(parts: seq<seq<Cell>>): seq<Cell>
    decreases |parts|
  {
    if parts == [] then [] else Concat(parts[..|parts| - 1]) + parts[|parts| - 1]
  }

  /** Every cell of one part appears in the concatenation. */
  lemma {:induction false} ConcatInclude(parts: seq<seq<Cell>>, i: nat)
    requires i < |parts|
    ensures forall c <- parts[i] :: c in Concat(parts)
    decreases |parts|
  {
    var n := |parts|;
    var init := parts[..n - 1];
    assert Concat(parts) == Concat(init) + parts[n - 1];
    if i < n - 1 {
      assert init[i] == parts[i];
      ConcatInclude(init, i);
    }
  }

  /** The cells of an entry's variables, variable by variable. */
  function VarParts(s: StateValue, pomdp: bool, category: string, vs: seq<PVarName>): (r: seq<seq<Cell>>)
    ensures |r| == |vs|
  {
    seq(|vs|, j requires 0 <= j < |vs| => VarCells(s, pomdp, category, vs[j]))
  }

  /** The cells of the entries, entry by entry. */
  function EntryParts(s: StateValue, pomdp: bool, es: seq<TypeEntry>): (r: seq<seq<Cell>>)
    ensures |r| == |es|
  {
    seq(|es|, i requires 0 <= i < |es| => VarsCells(s, pomdp, es[i].category, es[i].vars))
  }

  lemma {:induction false} VarsCellsConcat(s: StateValue, pomdp: bool, category: string, vs: seq<PVarName>)
    ensures VarsCells(s, pomdp, category, vs) == Concat(VarParts(s, pomdp, category, vs))
    decreases |vs|
  {
    if vs != [] {
      var n := |vs|;
      VarsCellsConcat(s, pomdp, category, vs[..n - 1]);
      assert VarParts(s, pomdp, category, vs)[..n - 1] == VarParts(s, pomdp, category, vs[..n - 1]);
    }
  }

  lemma {:induction false} EntriesCellsConcat(s: StateValue, pomdp: bool, es: seq<TypeEntry>)
    ensures EntriesCells(s, pomdp, es) == Concat(EntryParts(s, pomdp, es))
    decreases |es|
  {
    if es != [] {
      var n := |es|;
      EntriesCellsConcat(s, pomdp, es[..n - 1]);
      assert EntryParts(s, pomdp, es)[..n - 1] == EntryParts(s, pomdp, es[..n - 1]);
    }
  }

  /** The cells of one variable of an entry all appear among the entry's
      cells, whatever the other variables give. */
  lemma {:induction false} VarsCellsInclude(s: StateValue, pomdp: bool, category: string, vs: seq<PVarName>, j: nat)
    requires j < |vs|
    ensures forall c <- VarCells(s, pomdp, category, vs[j]) :: c in VarsCells(s, pomdp, category, vs)
  {
    VarsCellsConcat(s, pomdp, category, vs);
    ConcatInclude(VarParts(s, pomdp, category, vs), j);
  }

  /** The cells of one entry all appear among the cells of the type map. */
  lemma {:induction false} EntriesCellsInclude(s: StateValue, pomdp: bool, es: seq<TypeEntry>, i: nat)
    requires i < |es|
    ensures forall c <- VarsCells(s, pomdp, es[i].category, es[i].vars) :: c in EntriesCells(s, pomdp, es)
  {
    EntriesCellsConcat(s, pomdp, es);
    ConcatInclude(EntryParts(s, pomdp, es), i);
  }

  /** A shown variable whose groundings can be generated has its value at
      each grounding among its cells, and the observation's value at the
      same grounding when the observation variable is declared. */
  lemma CellsOfVarComplete(s: StateValue, pomdp: bool, category: string, p: PVarName, g: Grounding)
    requires VarShown(s, p) && CategoryShown(category, pomdp)
    requires s.atoms(p).Some? && g in s.atoms(p).value
    ensures Cell(category, p, p, g, s.assign(p, g)) in VarCells(s, pomdp, category, p)
    ensures ObsName in s.pvariables ==>
      Cell(category, p, ObsVar, g, s.assign(ObsVar, g)) in VarCells(s, pomdp, category, p)
  {
    var gs := s.atoms(p).value;
    var k :| 0 <= k < |gs| && gs[k] == g;
    var own := GroundCells(s, category, p, p, gs);
    var obs := GroundCells(s, category, p, ObsVar, gs);
    GroundCellsAt(s, category, p, p, gs, k);
    GroundCellsAt(s, category, p, ObsVar, gs, k);
    assert VarCells(s, pomdp, category, p) == own + (if ObsName in s.pvariables then obs else []);
  }

  /** The same completeness over a whole type map: an evaluation failure
      elsewhere removes only the failing variable's cells. */
  lemma CellsComplete(s: StateValue, pomdp: bool, es: seq<TypeEntry>, i: nat, j: nat, g: Grounding)
    requires i < |es| && j < |es[i].vars|
    requires VarShown(s, es[i].vars[j]) && CategoryShown(es[i].category, pomdp)
    requires s.atoms(es[i].vars[j]).Some? && g in s.atoms(es[i].vars[j]).value
    ensures var p := es[i].vars[j];
      Cell(es[i].category, p, p, g, s.assign(p, g)) in EntriesCells(s, pomdp, es)
    ensures var p := es[i].vars[j];
      ObsName in s.pvariables ==> Cell(es[i].category, p, ObsVar, g, s.assign(ObsVar, g)) in EntriesCells(s, pomdp, es)
  {
    CellsOfVarComplete(s, pomdp, es[i].category, es[i].vars[j], g);
    VarsCellsInclude(s, pomdp, es[i].category, es[i].vars, j);
    EntriesCellsInclude(s, pomdp, es, i);
  }

  /** The texts of the cells, in order. */
  function Texts(cells: seq<Cell>): (r: seq<string>)
    ensures |r| == |cells|
  {
    seq(|cells|, k requires 0 <= k < |cells| => ValueText(cells[k].value))
  }

  /** Read back at its tabs, rendered cells followed by a tab-free text
      give the cells' texts, then that text. */
  lemma {:induction false} SplitRendered(cells: seq<Cell>, u: string)
    requires forall c <- cells :: '\t' !in ValueText(c.value)
    requires '\t' !in u
    ensures Split(RenderAll(cells) + u, '\t') == Texts(cells) + [u]
    decreases |cells|
  {
    var n := |cells|;
    if n == 0 {
      assert RenderAll(cells) + u == u;
      SplitNoSeparator(u, '\t');
    } else {
      var init := cells[..n - 1];
      var t := ValueText(cells[n - 1].value);
      var x := RenderAll(init) + t;
      assert RenderAll(cells) + u == x + ['\t'] + u;
      SplitRendered(init, t);
      SplitAppend(x, u, '\t');
      SplitNoSeparator(u, '\t');
      assert Texts(init) + [t] == Texts(cells);
    }
  }

  /** Read back at its tabs, a description gives one column per cell, each
      holding that cell's text, and an empty remainder after the last tab
      (provided no value's text holds a tab itself). */
  lemma DescriptionColumns(cells: seq<Cell>)
    requires forall c <- cells :: '\t' !in ValueText(c.value)
    ensures Split(RenderAll(cells), '\t') == Texts(cells) + [""]
  {
    SplitRendered(cells, "");
    assert RenderAll(cells) + "" == RenderAll(cells);
  }
}

=== FILE: text.dfy ===
/** The java.lang.String and Integer operations the simulator relies on:
    `contains`, `replace`, decimal text of an `int`, and splitting text at a
    separator character (the inverse used to read rows and columns back). */
module Text {

  /** `p` occurs in `s` starting at index `i`. */
  predicate OccursAt(s: string, p: string, i: nat)
  {
    i + |p| <= |s| && s[i..i + |p|] == p
  }

  /** String.contains, scanning from the left: it finds `p` exactly when
      `p` occurs somewhere in `s`. */
  function Contains(s: string, p: string): (r: bool)
    ensures r <==> exists i: nat :: OccursAt(s, p, i)
    decreases |s|
  {
    if |s| < |p| then false
    else if s[..|p|] == p then
      assert OccursAt(s, p, 0);
      true
    else
      var rest := Contains(s[1..], p);
      OccursLater(s, p);
      rest
  }

  /** An occurrence in the tail is an occurrence in the whole, one place on. */
  lemma OccursInTail(s: string, p: string, i: nat)
    requires |s| > 0
    ensures OccursAt(s[1..], p, i) <==> OccursAt(s, p, i + 1)
  {
    if i + 1 + |p| <= |s| {
      assert s[1..][i..i + |p|] == s[i + 1..i + 1 + |p|];
    }
  }

  /** When `p` does not start `s`, it occurs in `s` exactly when it occurs
      in the tail. */
  lemma OccursLater(s: string, p: string)
    requires |s| >= |p| && s[..|p|] != p
    ensures (exists i: nat :: OccursAt(s[1..], p, i)) <==> (exists i: nat :: OccursAt(s, p, i))
  {
    assert !OccursAt(s, p, 0);
    if exists i: nat :: OccursAt(s[1..], p, i) {
      var i: nat :| OccursAt(s[1..], p, i);
      OccursInTail(s, p, i);
    }
    if exists i: nat :: OccursAt(s, p, i) {
      var i: nat :| OccursAt(s, p, i);
      OccursInTail(s, p, i - 1);
    }
  }

  /** String.replace(target, replacement): every occurrence of `pat`, taken
      left to right without overlap, is replaced by `rep`; where `pat` does
      not occur, nothing changes. */
  function ReplaceAll(s: string, pat: string, rep: string): (r: string)
    requires |pat| > 0
    ensures !Contains(s, pat) ==> r == s
    decreases |s|
  {
    if |s| < |pat| then s
    else if s[..|pat|] == pat then rep + ReplaceAll(s[|pat|..], pat, rep)
    else
      assert [s[0]] + s[1..] == s;
      [s[0]] + ReplaceAll(s[1..], pat, rep)
  }

  /** Replacing either changes nothing or leaves a mark of the replacement:
      any character of `rep` then occurs in the result. */
  lemma {:induction false} ReplaceAllLeavesMark(s: string, pat: string, rep: string, ch: char)
    requires |pat| > 0 && ch in rep
    ensures ReplaceAll(s, pat, rep) == s || ch in ReplaceAll(s, pat, rep)
    decreases |s|
  {
    if |s| < |pat| {
    } else if s[..|pat|] == pat {
    } else {
      ReplaceAllLeavesMark(s[1..], pat, rep, ch);
      assert [s[0]] + s[1..] == s;
    }
  }

  /** A pattern cannot occur where its first character does not. */
  lemma {:induction false} ContainsNeedsFirst(s: string, p: string)
    requires |p| > 0 && p[0] !in s
    ensures !Contains(s, p)
    decreases |s|
  {
    if |s| >= |p| {
      assert s[..|p|][0] == s[0];
      ContainsNeedsFirst(s[1..], p);
    }
  }

  predicate IsDigit(c: char)
  {
    '0' <= c <= '9'
  }

  function DigitChar(d: nat): (c: char)
    requires d < 10
    ensures IsDigit(c)
  {
    ('0' as int + d) as char
  }

  /** Decimal digits of `n`, most significant first, no leading zeros. */
  function DigitText(n: nat): (r: string)
    ensures |r| > 0 && forall k :: 0 <= k < |r| ==> IsDigit(r[k])
    decreases n
  {
    if n < 10 then [DigitChar(n)] else DigitText(n / 10) + [DigitChar(n % 10)]
  }

  /** Integer.toString: an optional minus sign followed by the digits. */
  function IntText(n: int): (r: string)
    ensures |r| > 0 && forall k :: 0 <= k < |r| ==> IsDigit(r[k]) || (k == 0 && r[k] == '-')
    ensures r[0] == '-' <==> n < 0
  {
    if n < 0 then "-" + DigitText(-n) else DigitText(n)
  }

  function DigitValue(c: char): nat
    requires IsDigit(c)
  {
    c as int - '0' as int
  }

  /** The value of a string of decimal digits, read left to right. */
  function DigitsValue(s: string): nat
    requires forall k :: 0 <= k < |s| ==> IsDigit(s[k])
    decreases |s|
  {
    if s == [] then 0
    else DigitsValue(s[..|s| - 1]) * 10 + DigitValue(s[|s| - 1])
  }

  /** Integer.parseInt on the text IntText produces. */
  function ParseInt(s: string): int
    requires forall k :: 0 <= k < |s| ==> IsDigit(s[k]) || (k == 0 && s[k] == '-')
  {
    if |s| > 0 && s[0] == '-' then -(DigitsValue(s[1..]) as int) else DigitsValue(s)
  }

  lemma {:induction false} DigitsRoundTrip(n: nat)
    ensures DigitsValue(DigitText(n)) == n
    decreases n
  {
    var r := DigitText(n);
    if n >= 10 {
      DigitsRoundTrip(n / 10);
      assert r[..|r| - 1] == DigitText(n / 10);
    }
  }

  /** The decimal text of an integer reads back as the same integer, and it
      holds neither a tab nor a line break. */
  lemma IntTextRoundTrip(n: int)
    ensures var r := IntText(n);
      (forall k :: 0 <= k < |r| ==> IsDigit(r[k]) || (k == 0 && r[k] == '-'))
      && ParseInt(r) == n
      && '\t' !in r && '\n' !in r
  {
    var d := DigitText(if n < 0 then -n else n);
    DigitsRoundTrip(if n < 0 then -n else n);
    if n < 0 {
      assert IntText(n)[1..] == d;
    }
    forall k | 0 <= k < |d| ensures d[k] != '\t' && d[k] != '\n' {
      assert IsDigit(d[k]);
    }
  }

  /** The fields of `s` between occurrences of `sep` (String.split with the
      trailing empty fields kept): k separators give k + 1 fields. */
  function Split(s: string, sep: char): (r: seq<string>)
    ensures |r| >= 1
    ensures forall k :: 0 <= k < |r| ==> sep !in r[k]
    decreases |s|
  {
    if s == [] then [""]
    else
      var rest := Split(s[1..], sep);
      if s[0] == sep then [""] + rest
      else [[s[0]] + rest[0]] + rest[1..]
  }

  /** The parts written one after the other with `sep` between neighbours
      and none after the last. */
  function Join(parts: seq<string>, sep: char): string
    decreases |parts|
  {
    if |parts| == 0 then ""
    else if |parts| == 1 then parts[0]
    else Join(parts[..|parts| - 1], sep) + [sep] + parts[|parts| - 1]
  }

  /** Joining one more part. */
  lemma JoinSnoc(parts: seq<string>, i: nat, sep: char)
    requires i < |parts|
    ensures Join(parts[..i + 1], sep) == if i == 0 then parts[0] else Join(parts[..i], sep) + [sep] + parts[i]
  {
    assert parts[..i + 1][..i] == parts[..i];
  }

  /** A character found in no part, and not the separator, is not in the
      joined text. */
  lemma {:induction false} JoinAvoids(parts: seq<string>, sep: char, ch: char)
    requires ch != sep && forall k :: 0 <= k < |parts| ==> ch !in parts[k]
    ensures ch !in Join(parts, sep)
    decreases |parts|
  {
    if |parts| > 1 {
      JoinAvoids(parts[..|parts| - 1], sep, ch);
    }
  }

  lemma {:induction false} SplitNoSeparator(a: string, sep: char)
    requires sep !in a
    ensures Split(a, sep) == [a]
    decreases |a|
  {
    if a != [] {
      SplitNoSeparator(a[1..], sep);
      assert [a[0]] + a[1..] == a;
    }
  }

  /** Splitting at one occurrence of the separator splits the two sides
      independently. */
  lemma {:induction false} SplitAppend(a: string, b: string, sep: char)
    ensures Split(a + [sep] + b, sep) == Split(a, sep) + Split(b, sep)
    decreases |a|
  {
    var s := a + [sep] + b;
    if a == [] {
      assert s[1..] == b;
    } else {
      assert s[1..] == a[1..] + [sep] + b;
      SplitAppend(a[1..], b, sep);
    }
  }

  /** Splitting undoes joining, provided no part holds the separator. */
  lemma {:induction false} SplitJoin(parts: seq<string>, sep: char)
    requires |parts| >= 1
    requires forall k :: 0 <= k < |parts| ==> sep !in parts[k]
    ensures Split(Join(parts, sep), sep) == parts
    decreases |parts|
  {
    var n := |parts|;
    if n == 1 {
      SplitNoSeparator(parts[0], sep);
    } else {
      var init := parts[..n - 1];
      SplitJoin(init, sep);
      SplitAppend(Join(init, sep), parts[n - 1], sep);
      SplitNoSeparator(parts[n - 1], sep);
      assert init + [parts[n - 1]] == parts;
    }
  }
}

=== FILE: trajectory_log.dfy ===
/** The trajectory logger (Simulator.write_data): one tab-separated row per
    trial, collected in a buffer and handed to the file writer every
    thousandth trial. The file is a record of whether it exists and of the
    text handed to its writer since it was last (re)created. */
module TrajectoryLog {
  import opened Text

  /** The buffer is written out when the trial number is a multiple of this. */
  const FlushInterval: int := 1000

  datatype FileRecord = FileRecord(present: bool, written: string)

  /** The logger's fields: `started`, the StringBuilder `sb`, and the file. */
  datatype LogState = LogState(started: bool, buffer: string, file: FileRecord)

  /** A row: the trial number, a tab, then the steps' blocks with a tab
      between neighbours and none after the last. */
  function Row(trial: int, blocks: seq<string>): (r: string)
    ensures Split(r, '\t')[0] == IntText(trial)
  {
    IntTextRoundTrip(trial);
    SplitAppend(IntText(trial), Join(blocks, '\t'), '\t');
    SplitNoSeparator(IntText(trial), '\t');
    IntText(trial) + "\t" + Join(blocks, '\t')
  }

  /** Logging one row. The first row of a run, or any row when the file has
      gone, (re)creates an empty file and starts an empty buffer; any other
      row is put after a line break. The buffer then goes to the file when
      the trial number is a multiple of the flush interval. */
  function Log(ls: LogState, trial: int, row: string): (r: LogState)
    ensures r.started && r.file.present
    ensures r.file.written + r.buffer
         == (if ls.started && ls.file.present then ls.file.written + ls.buffer + "\n" else "") + row
    ensures trial % FlushInterval == 0 ==> r.buffer == ""
    ensures trial % FlushInterval != 0 ==>
      r.file.written == (if ls.started && ls.file.present then ls.file.written else "")
  {
    var restart := !ls.file.present || !ls.started;
    var file := if restart then FileRecord(true, "") else ls.file;
    var buffer := (if restart then "" else ls.buffer + "\n") + row;
    if trial % FlushInterval == 0 then LogState(true, "", FileRecord(true, file.written + buffer))
    else LogState(true, buffer, file)
  }

  /** Logging the rows of trials first, first + 1, ..., in order. */
  function LogTrials(ls: LogState, first: int, rows: seq<string>): LogState
    decreases |rows|
  {
    if rows == [] then ls
    else Log(LogTrials(ls, first, rows[..|rows| - 1]), first + |rows| - 1, rows[|rows| - 1])
  }

  /** Logging one more trial after a run of them. */
  lemma LogTrialsSnoc(ls: LogState, first: int, rows: seq<string>, row: string)
    ensures LogTrials(ls, first, rows + [row]) == Log(LogTrials(ls, first, rows), first + |rows|, row)
  {
    assert (rows + [row])[..|rows|] == rows;
  }

  /** The number of leading rows that have reached the file after n trials
      numbered from 1: the last trial number up to n that is a multiple of
      the flush interval, or none. */
  function Flushed(n: nat): (f: nat)
    ensures f <= n
  {
    if n == 0 || n % FlushInterval == 0 then n else Flushed(n - 1)
  }

  /** The flushed count is the largest multiple of the flush interval up to
      n: at most one interval's worth of rows is ever held back. */
  lemma {:induction false} FlushedIsLastMultiple(n: nat)
    ensures Flushed(n) <= n && Flushed(n) % FlushInterval == 0
    ensures n - Flushed(n) < FlushInterval
    ensures Flushed(n) == n / FlushInterval * FlushInterval
  {
    if n != 0 && n % FlushInterval != 0 {
      FlushedIsLastMultiple(n - 1);
      var q := (n - 1) / FlushInterval;
      assert Flushed(n - 1) == q * FlushInterval;
      assert n - 1 == q * FlushInterval + (n - 1) % FlushInterval;
      assert (n - 1) % FlushInterval != FlushInterval - 1;
      assert n == q * FlushInterval + ((n - 1) % FlushInterval + 1);
      assert n / FlushInterval == q;
    }
  }

  /** Before the first multiple of the flush interval nothing is flushed. */
  lemma {:induction false} FlushedBelowInterval(n: nat)
    requires n < FlushInterval
    ensures Flushed(n) == 0
  {
    if n > 0 {
      FlushedBelowInterval(n - 1);
    }
  }

  /** After a fresh run of trials 1..n, the file and the buffer together
      hold every row in order, one per line. */
  lemma {:induction false} BatchContents(ls: LogState, rows: seq<string>)
    requires !ls.started && |rows| > 0
    ensures var r := LogTrials(ls, 1, rows);
      && r.started && r.file.present
      && r.file.written + r.buffer == Join(rows, '\n')
    decreases |rows|
  {
    var n := |rows|;
    if n > 1 {
      var init := rows[..n - 1];
      BatchContents(ls, init);
      var before := LogTrials(ls, 1, init);
      var after := Log(before, n, rows[n - 1]);
      assert LogTrials(ls, 1, rows) == after;
      assert after.file.written + after.buffer == before.file.written + before.buffer + "\n" + rows[n - 1];
    }
  }

  /** After a fresh run of trials 1..n, the file holds exactly the rows up to
      the last multiple of the flush interval, one per line. */
  lemma {:induction false} BatchFlushed(ls: LogState, rows: seq<string>)
    requires !ls.started && |rows| > 0
    ensures LogTrials(ls, 1, rows).file.written == Join(rows[..Flushed(|rows|)], '\n')
    decreases |rows|
  {
    var n := |rows|;
    if n > 1 {
      var init := rows[..n - 1];
      BatchFlushed(ls, init);
      var before := LogTrials(ls, 1, init);
      assert LogTrials(ls, 1, rows) == Log(before, n, rows[n - 1]);
      if n % FlushInterval == 0 {
        BatchContents(ls, rows);
        assert rows[..Flushed(n)] == rows;
      } else {
        BatchContents(ls, init);
        assert init[..Flushed(n - 1)] == rows[..Flushed(n)];
      }
    }
  }

  /** How main ends a run: it closes the writer; the buffer is dropped. */
  function CloseAsWritten(ls: LogState): (f: FileRecord)
    ensures f.present == ls.file.present && f.written == ls.file.written
    ensures ls.buffer != "" ==> f.written != ls.file.written + ls.buffer
  {
    ls.file
  }

  /** Ending a run by writing the remaining buffer, then closing. */
  function CloseFlushing(ls: LogState): (f: FileRecord)
    ensures f.present == ls.file.present && f.written == ls.file.written + ls.buffer
  {
    FileRecord(ls.file.present, ls.file.written + ls.buffer)
  }

  /** With main's close, a run whose number of trials is not a multiple of
      the flush interval loses its last rows: read back line by line, the
      file does not give the rows logged. With one trial, the default, the
      file stays empty. */
  lemma AsWrittenCloseDropsTail(ls: LogState, rows: seq<string>)
    requires !ls.started && |rows| > 0 && |rows| % FlushInterval != 0
    requires forall k :: 0 <= k < |rows| ==> rows[k] != "" && '\n' !in rows[k]
    ensures Split(CloseAsWritten(LogTrials(ls, 1, rows)).written, '\n') != rows
    ensures |rows| < FlushInterval ==> CloseAsWritten(LogTrials(ls, 1, rows)).written == ""
  {
    BatchFlushed(ls, rows);
    var f := Flushed(|rows|);
    if |rows| < FlushInterval {
      FlushedBelowInterval(|rows|);
    }
    var written := CloseAsWritten(LogTrials(ls, 1, rows)).written;
    assert f < |rows|;
    if f == 0 {
      assert written == "";
      assert Split("", '\n') == [""];
      assert rows[0] != "";
    } else {
      SplitJoin(rows[..f], '\n');
      assert |Split(written, '\n')| == f;
    }
  }

  /** Closing after writing the buffer keeps every row: read back line by
      line, the file gives exactly the rows of the run, in order, whatever
      the flush interval. */
  lemma FlushedCloseKeepsEveryRow(ls: LogState, rows: seq<string>)
    requires !ls.started && |rows| > 0
    requires forall k :: 0 <= k < |rows| ==> '\n' !in rows[k]
    ensures Split(CloseFlushing(LogTrials(ls, 1, rows)).written, '\n') == rows
  {
    BatchContents(ls, rows);
    SplitJoin(rows, '\n');
  }

  /** A row starts with its trial number, which reads back from the first
      tab-separated field; a row holds no line break when no block does, so
      each row is one line of the file; a trial without steps logs only its
      number and a tab. */
  lemma RowFields(trial: int, blocks: seq<string>)
    ensures var fields := Split(Row(trial, blocks), '\t');
      fields[0] == IntText(trial)
      && ParseInt(fields[0]) == trial
    ensures (forall k :: 0 <= k < |blocks| ==> '\n' !in blocks[k]) ==> '\n' !in Row(trial, blocks)
    ensures blocks == [] ==> Row(trial, blocks) == IntText(trial) + "\t"
  {
    IntTextRoundTrip(trial);
    SplitAppend(IntText(trial), Join(blocks, '\t'), '\t');
    SplitNoSeparator(IntText(trial), '\t');
    if forall k :: 0 <= k < |blocks| ==> '\n' !in blocks[k] {
      JoinAvoids(blocks, '\t', '\n');
    }
  }
}
